=== FILE: README.md ===
# A Dafny model of a MapReduce library, a shell's argument helpers and a threaded matrix product

This project models the core logic of three small C programs and proves
properties of that model:

- **MapReduce** (`MapReduce/mapreduce.h`, `MapReduce/threadpool.h`). This
  covers:
  - the djb2 partitioner;
  - the per-partition lists kept sorted by `MR_Emit`;
  - the destructive consumption by `MR_GetNext`;
  - the `MR_Reduce` driver loop;
  - the choice of reduce jobs in `MR_Run`;
  - the shortest-job-first (SJF) worker pool as a state machine.

  Locks are abstracted: each operation is one critical section.
- **DragonShell** (`DragonShell/dragonshell.c`, `DragonShell/dragonshell_util.h`).
  This covers:
  - `strtok`-style tokenizing;
  - `combineArgs`;
  - the argument checks of `cd`;
  - `contains`;
  - the capacity rule of `resizeChildren`;
  - `systemCodes`;
  - the buffer clean-up in `getInput`.
- **Pthreads matrix multiplication** (`Pthreads-matrix-multiplication/test.c`,
  `Pthreads-matrix-multiplication/matrix_mult.c`). This covers:
  - the serial product and the comparison;
  - the per-thread block computation;
  - the thread→block assignment.

Modules and files:

| file | module | models |
|---|---|---|
| `options.dfy` | `Options` | a pointer that may be NULL |
| `splice.dfy` | `Splice` | facts about inserting one element into a sequence, shared by the two sorted insertions |
| `cstring.dfy` | `CString` | C strings (bytes 1..255), the sign of `strcmp`, the string a raw buffer holds |
| `threadpool.dfy` | `ThreadPool` | `threadpool.h` |
| `mapreduce.dfy` | `MapReduce` | `mapreduce.h` |
| `shell_util.dfy` | `ShellUtil` | `dragonshell_util.h` |
| `dragonshell.dfy` | `DragonShell` | `dragonshell.c` |
| `matrix_serial.dfy` | `MatrixSerial` | `test.c` |
| `matrix_parallel.dfy` | `MatrixParallel` | `matrix_mult.c` |

Modelling choices:

- **Partitioner.** It reads key bytes as signed `char`, which is the x86-64 ABI. It wraps its `unsigned long` accumulator modulo 2^64 at every step, written out explicitly.
- **Reducer.** It is a *draining* reducer: it calls `MR_GetNext` until that returns NULL, and then `MR_Reduce` moves on.
- **`MR_GetNext`.** It is modelled as written. While the second record matches the key, the second record is removed. For a key group with values `v1, …, vn`, the reducer therefore receives `v2, …, vn, v1`.
- **`size` in `MR_GetNext`.** Every operation keeps `size == |list|`. In the first branch of `MR_GetNext` the head record stays in the list, so `assert(bucket->size > 0)` holds there (`MapReduce.GetNext`).
- **Pool in-flight count.** The pool keeps an explicit `inFlight` counter for jobs that were dequeued but not yet finished. The C code keeps this only implicitly, as `jobs.size` minus the queue length.
- **System calls.** `access(call, X_OK) == 0` and `chdir` are functions the caller supplies. The bytes `read` delivers are an input.
- **Integer square root.** The threaded product uses an exact integer root `r` with `numThreads == r * r` in place of `sqrt`/`floor`.

## Model

| member | source | states |
|---|---|---|
| `CString.Strcmp` | MapReduce/mapreduce.h:150 | the sign of `strcmp` is -1, 0 or 1, and it is 0 exactly when the two strings are equal |
| `CString.StrcmpAntisymmetric` | MapReduce/mapreduce.h:150 | swapping the arguments of `strcmp` negates its sign |
| `CString.StrcmpTransitive` | MapReduce/mapreduce.h:150 | the `<= 0` order used by the insertion loops is transitive |
| `CString.StrcmpStrictTransitive` | MapReduce/mapreduce.h:150 | below-then-at-most gives strictly below |
| `CString.StringOf` | DragonShell/dragonshell_util.h:249-253 | the C string a buffer holds is its prefix before the first NUL |
| `MapReduce.SignedChar` | MapReduce/mapreduce.h:177-178 | a key byte read into `int c` through signed `char` is non-zero and congruent to the byte modulo 256 |
| `MapReduce.Djb2` | MapReduce/mapreduce.h:176-179 | the `unsigned long` accumulator stays below 2^64 |
| `MapReduce.Djb2Closed` | MapReduce/mapreduce.h:176-180 | wrapping at every step equals the djb2 polynomial over the key bytes taken once modulo 2^64, so the hash depends on the key bytes alone |
| `MapReduce.Partitioner` | MapReduce/mapreduce.h:175-181 | the partition index is below `num_partitions` and equals the djb2 polynomial mod 2^64 mod `num_partitions` |
| `MapReduce.InitPartitions` | MapReduce/mapreduce.h:33-42 | `num_parts` partitions, all empty, which is a valid store |
| `MapReduce.Select` | MapReduce/mapreduce.h:150-153 | the subsequence of one key's records carries only that key |
| `MapReduce.SelectAppend` | MapReduce/mapreduce.h:150-153 | selecting one key's records distributes over concatenation |
| `MapReduce.SelectAbove` | MapReduce/mapreduce.h:150-153 | in a sorted list whose head key is above `key`, no record carries `key` |
| `MapReduce.InsertionPoint` | MapReduce/mapreduce.h:146-153 | the traversal stops at the first record whose key compares above the new key; every record before it compares at most equal |
| `MapReduce.InsertRecord` | MapReduce/mapreduce.h:145-161 | the traversal puts the new record at the insertion point (after every record whose key is `strcmp`-at-most its own), and the existing records keep their order around it |
| `MapReduce.InsertRecordSorted` | MapReduce/mapreduce.h:145-161 | insertion keeps a sorted list sorted |
| `MapReduce.InsertRecordStable` | MapReduce/mapreduce.h:150-153 | the new record goes behind every record with its key, and other keys' records are unchanged |
| `MapReduce.Emit` | MapReduce/mapreduce.h:127-165 | one record is added to partition `MR_Partitioner(key)` at its sorted position (the multiset gains exactly that record). The target partition's size grows by one, the other partitions are unchanged, and validity is preserved |
| `MapReduce.InsertIntoBucket` | MapReduce/mapreduce.h:141-163 | the new record lands after every record whose key is `strcmp`-at-most its own and before the rest; the list gains exactly that record, `size` grows by one, and a sorted list with an agreeing size stays so |
| `MapReduce.EmitAll` | MapReduce/mapreduce.h:127-165 | a sequence of emissions keeps the store valid |
| `MapReduce.EmitAllRoutes` | MapReduce/mapreduce.h:136-163 | after a sequence of emissions, a key's partition holds that key's records in emission order, behind the ones it already held |
| `MapReduce.LeadingRun` | MapReduce/mapreduce.h:225-245 | the length of the head run of records carrying `key` |
| `MapReduce.ValuesOf` | MapReduce/mapreduce.h:236-247 | the values of a list of records, position by position |
| `MapReduce.Rotate` | MapReduce/mapreduce.h:231-255 | the order `MR_GetNext` hands out a group is a permutation of the group's values |
| `MapReduce.GetNext` | MapReduce/mapreduce.h:222-259 | returns NULL, changing nothing, exactly when the partition is empty or its head key differs. Otherwise it removes one matching record and returns its value: the second record when that matches, else the head. Size drops by one and stays positive in the first case. Other partitions are unchanged and validity is preserved |
| `MapReduce.Drain` | MapReduce/mapreduce.h:222-259 | calling `MR_GetNext` until NULL removes exactly the head run, returns its values as `v2..vn, v1`, and leaves the rest of the list and the other partitions alone |
| `MapReduce.SecondRemoved` | MapReduce/mapreduce.h:233-242 | removing the second record shortens the head run by one |
| `MapReduce.HeadRemoved` | MapReduce/mapreduce.h:245-254 | popping a lone head empties the head run |
| `MapReduce.DrainStep` | MapReduce/mapreduce.h:231-255 | one successful `MR_GetNext` step, related to the rest of the drain |
| `MapReduce.ReduceGroupsKeys` | MapReduce/mapreduce.h:202-208 | a key with no record in the partition receives no values |
| `MapReduce.ReduceGroupsPerKey` | MapReduce/mapreduce.h:202-208 | in a sorted partition, reducing hands every key exactly its records' values, as `v2..vn, v1` |
| `MapReduce.FirstRunIsWholeKey` | MapReduce/mapreduce.h:202-208 | in a sorted list the head run holds every record of the head key |
| `MapReduce.SelectAll` | MapReduce/mapreduce.h:202-208 | a list of one key selects to itself |
| `MapReduce.SelectNone` | MapReduce/mapreduce.h:202-208 | a list without a key selects to nothing |
| `MapReduce.Reduce` | MapReduce/mapreduce.h:189-211 | the reduce loop ends with the partition empty and size 0, other partitions unchanged; in a sorted partition each key's reduced values are the rotation of its records' values |
| `MapReduce.ReduceLoop` | MapReduce/mapreduce.h:202-208 | re-reading the head after each reducer call, the loop stops with the partition empty and size 0 and other partitions unchanged; the groups it hands out, in order, are the head runs of the original list |
| `MapReduce.CallReducer` | MapReduce/mapreduce.h:206 | one reducer call on the head key removes that key's leading run, lowers `size` by its length, and sees the run's values rotated by one; other partitions are unchanged |
| `MapReduce.GroupsStep` | MapReduce/mapreduce.h:203-207 | one loop iteration moves the head run from the records still to reduce to the groups already handed out, keeping their concatenation the same |
| `MapReduce.EmitThenReduce` | MapReduce/mapreduce.h:127-259 | emitting into fresh partitions and reducing a key's partition yields exactly that key's emitted values, rotated by one |
| `MapReduce.JobsUpToStep` | MapReduce/mapreduce.h:95-107 | one iteration of the reduce-submission loop keeps its invariant |
| `MapReduce.ReduceJobs` | MapReduce/mapreduce.h:95-107 | one reduce job per non-empty partition, in partition order, costed at the partition's size, and none for empty partitions |
| `ThreadPool.WithSizeAppend` | MapReduce/threadpool.h:139-150 | selecting one cost distributes over concatenation |
| `ThreadPool.Create` | MapReduce/threadpool.h:50-77 | the new pool has an empty queue, size 0, nothing in flight, no shutdown, and is valid |
| `ThreadPool.InsertionPoint` | MapReduce/threadpool.h:139-142 | the traversal stops at the first job with a larger cost; every job before it costs at most as much |
| `ThreadPool.InsertJob` | MapReduce/threadpool.h:135-151 | the traversal puts the new job at the insertion point (after every queued job of cost at most its own), and the queued jobs keep their order around it |
| `ThreadPool.InsertJobSorted` | MapReduce/threadpool.h:139-150 | insertion keeps the queue sorted by cost, so the head is a shortest job |
| `ThreadPool.InsertJobFifo` | MapReduce/threadpool.h:139-150 | jobs of equal cost stay in submission order: the new job goes behind every queued job of its cost |
| `ThreadPool.AddJob` | MapReduce/threadpool.h:114-161 | always returns true; the queue gains exactly the job, at its SJF position, and size grows by one; validity is preserved |
| `ThreadPool.GetJob` | MapReduce/threadpool.h:170-191 | after shutdown, NULL even with jobs queued; an empty queue waits; otherwise the shortest job is dequeued without touching size, and validity is preserved |
| `ThreadPool.FinishJob` | MapReduce/threadpool.h:208-209 | a finished job leaves size and the in-flight count one lower, and keeps size equal to queued plus in-flight |
| `ThreadPool.CheckMayReturn` | MapReduce/threadpool.h:228-238 | the barrier releases exactly when nothing is queued and nothing is in flight |
| `ThreadPool.Destroy` | MapReduce/threadpool.h:84-89 | the shutdown flag is raised, and every later fetch yields NULL |
| `ThreadPool.Replay` | MapReduce/threadpool.h:114-222 | any sequence of submissions, fetches and completions keeps size equal to queued plus in-flight |
| `ThreadPool.NothingStartsAfterShutdown` | MapReduce/threadpool.h:178-181 | after shutdown no job starts, and every queued or later-submitted job stays queued |
| `ThreadPool.SubmitAll` | MapReduce/threadpool.h:131-153 | a sequence of submissions adds exactly those jobs and keeps the pool valid |
| `ThreadPool.SubmitAllStable` | MapReduce/threadpool.h:139-150 | the queue is a stable sort by cost: each cost's jobs appear in submission order |
| `ThreadPool.ShortestJobFirstExample` | MapReduce/threadpool.h:139-150 | jobs of cost 5, 1, 3 submitted in that order queue as 1, 3, 5 |
| `ThreadPool.RunUntilIdle` | MapReduce/threadpool.h:199-238 | one worker runs every queued job exactly once, shortest first, after which the barrier releases with size 0 |
| `ShellUtil.Contains` | DragonShell/dragonshell_util.h:75-83 | 0 exactly when none of the first `len` non-NULL slots contains the character, with the array unchanged. Otherwise it returns the 1-based index of the first such slot, which is set to NULL, and nothing else changes |
| `ShellUtil.ResizeChildren` | DragonShell/dragonshell_util.h:100-101 | the capacity doubles exactly when the count has reached it, and is unchanged otherwise |
| `ShellUtil.ResizeLeavesRoom` | DragonShell/dragonshell_util.h:99-111 | with a positive capacity covering the count, the resized table has a slot at index `count`, and it grows at most twofold |
| `ShellUtil.CapacityAfter` | DragonShell/dragonshell_util.h:30-32 | starting from `MAX_ARG`, after any number of launches each preceded by a resize, the capacity counter `maxChildren` exceeds the launch count |
| `ShellUtil.SystemCodes` | DragonShell/dragonshell_util.h:186-206 | `cd`→10, `pwd`→30 and `exit`→0 exactly for those words; any other word maps to 40 when executable and -1 otherwise |
| `ShellUtil.BuiltinsIgnoreFileSystem` | DragonShell/dragonshell_util.h:192-200 | the built-in words are classified before any executability check |
| `ShellUtil.GetInput` | DragonShell/dragonshell_util.h:245-257 | the command is the bytes read up to the first NUL, with one trailing newline dropped, and the status is 1 exactly when it is empty |
| `ShellUtil.GetInputLine` | DragonShell/dragonshell_util.h:249-256 | a typed line reads back as itself, with or without the newline that ended it |
| `DragonShell.RunLength` | DragonShell/dragonshell.c:13-16 | the longest run of non-delimiters at the front, ended by a delimiter or the end |
| `DragonShell.Tokenize` | DragonShell/dragonshell.c:11-18 | every token is non-empty and free of delimiters, and the tokens together are the input's non-delimiter characters in order |
| `DragonShell.Strip` | DragonShell/dragonshell.c:13-16 | what remains of a string once its delimiters are dropped contains no delimiter and is no longer than the string |
| `DragonShell.StripAppend` | DragonShell/dragonshell.c:13-16 | stripping distributes over concatenation |
| `DragonShell.TokenizeOnlyDelimiters` | DragonShell/dragonshell.c:13-16 | an input made only of delimiters yields no token |
| `DragonShell.TokenizeNothing` | DragonShell/dragonshell.c:11-18 | `tokenize` stores no word exactly when the input holds only delimiters |
| `DragonShell.TokenizeWord` | DragonShell/dragonshell.c:13-16 | a non-empty delimiter-free string is exactly one token |
| `DragonShell.TokenizeSplit` | DragonShell/dragonshell.c:13-16 | the tokens of `a + d + b` for a delimiter `d` are those of `a` followed by those of `b`; with the previous two this makes the tokens the maximal non-delimiter runs, left to right |
| `DragonShell.TokenizeJoin` | DragonShell/dragonshell.c:11-18 | splitting words joined with a delimiter gives the words back |
| `DragonShell.TokenizeJoinStep` | DragonShell/dragonshell.c:11-18 | if the tail of a word list survives the join-then-split round trip, a non-empty delimiter-free first word does too |
| `DragonShell.NullFrom` | DragonShell/dragonshell.c:137 | the first NULL slot at or after the start index |
| `DragonShell.ArgsFrom` | DragonShell/dragonshell.c:137-146 | the strings from the start index up to the first NULL |
| `DragonShell.JoinFitsAllocation` | DragonShell/dragonshell.c:136-140 | for at least one word, the joined string plus its terminator fills `total_length` exactly |
| `DragonShell.EmptyCombineOverflows` | DragonShell/dragonshell.c:136-145 | with no word after the start, `total_length` is 0 yet one byte (the terminator) is written |
| `DragonShell.CorrectedAllocation` | DragonShell/dragonshell.c:136-140 | the corrected allocation always has room for the joined string and its terminator |
| `DragonShell.CombineArgs` | DragonShell/dragonshell.c:135-154 | the result is the words from the start index to the first NULL, joined with single spaces and without a trailing space (empty when there are none), and it fits its allocation |
| `DragonShell.FullLineHasNoNull` | DragonShell/dragonshell.c:400-422 | with `MAX_ARG` words in `main`'s `MAX_ARG`-slot array, no slot at or after index 1 is NULL, so `combineArgs(args, 1)` has nothing to stop at |
| `DragonShell.ArgsOfLineFrom` | DragonShell/dragonshell.c:137-148 | in an array with one slot more than the words, a NULL follows the last word, and the words `combineArgs(args, 1)` reads are exactly those after `cd` |
| `DragonShell.CombineCdArgs` | DragonShell/dragonshell.c:421-422 | in the corrected reading, the `cd` argument `main` builds is the words after `cd` joined with single spaces, in a buffer with room for its terminator |
| `DragonShell.TotalLength` | DragonShell/dragonshell.c:136-140 | `total_length` is the words' lengths plus one byte per word, and is 0 exactly when no word follows the start |
| `DragonShell.JoinArgs` | DragonShell/dragonshell.c:145-151 | appending each word, followed by a space unless the next slot is NULL, builds the words joined by single spaces |
| `DragonShell.CdPathAsWritten` | DragonShell/dragonshell.c:37-41 | without a quote the path is used as given; with one, the effective path is the first token of the path split on `"`, and there is none exactly when that split yields no token |
| `DragonShell.QuoteOnlyPathHasNoToken` | DragonShell/dragonshell.c:37-41 | the argument `"` leaves `arg[0]` unset |
| `DragonShell.BlankLineHasNoWord` | DragonShell/dragonshell.c:403-419 | the line of one space is accepted by `getInput` and `tokenize` stores no word for it, so `args[0]` is still NULL when `systemCodes` is called |
| `DragonShell.CommandCode` | DragonShell/dragonshell.c:407-419 | in the corrected reading, a line gets no code (a prompt again) exactly when it holds only spaces; any other line gets `systemCodes` of its first word |
| `DragonShell.Cd` | DragonShell/dragonshell.c:33-52 | NULL gives -2 without a directory change; in the corrected reading, an argument with no path between its quotes also gives -2; otherwise 0 when `chdir` of the effective path returns 0 and -1 for any other result |
| `DragonShell.CdQuotedName` | DragonShell/dragonshell.c:37-42 | a name between double quotes reaches `chdir` unchanged, just like the bare name |
| `MatrixSerial.Product` | Pthreads-matrix-multiplication/test.c:46-52 | cell `(i, j)` of the product is Σ_k `A[i][k]*B[k][j]` |
| `MatrixSerial.CellLoop` | Pthreads-matrix-multiplication/test.c:48-51 | the reset-then-accumulate loop yields the cell's dot product |
| `MatrixSerial.MatrixMultiply` | Pthreads-matrix-multiplication/test.c:43-53 | every cell of `C` is overwritten with the product cell, whatever `C` held, so `C` becomes `A·B` |
| `MatrixSerial.SameCells` | Pthreads-matrix-multiplication/test.c:108-117 | two n×n matrices with equal cells are equal |
| `MatrixSerial.CompareMatrices` | Pthreads-matrix-multiplication/test.c:108-117 | the result is 1 exactly when all n×n cells agree, and 0 otherwise |
| `MatrixParallel.MatrixMultiplyThread` | Pthreads-matrix-multiplication/matrix_mult.c:14-32 | every cell of the thread's block becomes its dot product, and every other cell keeps its value |
| `MatrixParallel.RunThreads` | Pthreads-matrix-multiplication/matrix_mult.c:84-91 | after all threads, a cell holds the product exactly when some block covers it, and keeps its value otherwise |
| `MatrixParallel.CoveredStep` | Pthreads-matrix-multiplication/matrix_mult.c:84-87 | one more thread covers its own block in addition to the earlier ones |
| `MatrixParallel.BlockEnd` | Pthreads-matrix-multiplication/matrix_mult.c:20-21 | a block with index below `r` ends by `r * blockSize` |
| `MatrixParallel.BlocksFit` | Pthreads-matrix-multiplication/matrix_mult.c:79 | `r` blocks of side `n / r` fit in `n`, and fill it exactly when `r` divides `n` |
| `MatrixParallel.ThreadOf` | Pthreads-matrix-multiplication/matrix_mult.c:85 | block `(p, q)` belongs to thread `p*r + q` |
| `MatrixParallel.ThreadBlock` | Pthreads-matrix-multiplication/matrix_mult.c:79-85 | each of the `r*r` threads gets a block inside the n×n matrix |
| `MatrixParallel.ThreadBlockFits` | Pthreads-matrix-multiplication/matrix_mult.c:20-21 | a thread's rows and columns end by `r * (n / r)` |
| `MatrixParallel.ThreadBlocks` | Pthreads-matrix-multiplication/matrix_mult.c:84-85 | there are `r*r` thread blocks, all inside the matrix |
| `MatrixParallel.ThreadBlocksDisjoint` | Pthreads-matrix-multiplication/matrix_mult.c:85 | distinct threads get distinct `(i/r, i%r)` coordinates, and their blocks share no cell |
| `MatrixParallel.ThreadCoverage` | Pthreads-matrix-multiplication/matrix_mult.c:79-85 | the threads cover exactly the cells with row and column below `r * (n / r)` |
| `MatrixParallel.ParallelMultiply` | Pthreads-matrix-multiplication/matrix_mult.c:79-91 | cells with row and column below `r * (n / r)` hold the product and the rest keep their old value; when `r` divides `n` the result is the serial product |
| `MatrixParallel.TrailingCellMissed` | Pthreads-matrix-multiplication/matrix_mult.c:79-85 | with 4 threads on 3×3 matrices, cell (2, 2) is computed by no thread, although the identity's product has 1 there |
| `MatrixParallel.CorrectedThreadBlock` | Pthreads-matrix-multiplication/matrix_mult.c:79-85 | with the last block row and column extended to `n`, every block stays inside the matrix |
| `MatrixParallel.CorrectedBlockAt` | Pthreads-matrix-multiplication/matrix_mult.c:79-85 | a block at coordinates below `r`, with the last row and column extended to `n`, lies inside the matrix |
| `MatrixParallel.CorrectedCoverage` | Pthreads-matrix-multiplication/matrix_mult.c:79-85 | with the corrected blocks, every cell is computed by some thread |
| `MatrixParallel.CorrectedParallelMultiply` | Pthreads-matrix-multiplication/matrix_mult.c:79-91 | the corrected program computes the serial product for every root `r >= 1` |

## Left out

- Locking and threads are not modelled: pthread mutexes, condition variables, thread creation and joining (`threadpool.h`, and the partition locks in `mapreduce.h`). Every operation is one critical section, and wake-up order is out of scope.
- The `stat` probe in `ThreadPool_add_job` is replaced by a job tagged as map or reduce, with its cost given, because it is a file-system query.
- Memory management is not modelled: `malloc`, `free`, `strdup`, the disabled frees in `MR_GetNext`, and the `realloc` result in `resizeChildren`, which updates only the function's local copy of the pointer.
- Process control and I/O in the shell are not modelled: `fork`, `execve`, `pipe`, `dup2`, `wait`, `kill`, signal handling, `terminateProcesses`, `redirectIO`, `pipeProcesses`, `executeAny`, `subProcess`, `pwd`, `prompt`, `timeNow`, and the loop of `main` apart from its dispatch on the first word (`DragonShell.CommandCode`).
- `chdir` and `access` are supplied as functions, and `read` is replaced by the bytes it delivers.
- File I/O, `system()` calls, timing and allocation in the matrix programs are left out, because they are I/O or memory management.
- `DragonShell.Tokenize`: the argument array has room for `MAX_ARG` pointers, and `tokenize` does not check that bound. The model returns every token and does not model a write past the array.
- `ShellUtil.GetInput`: a failed `read` (a return of -1) is not modelled. The bytes read are a sequence of at most 1023 bytes.
- `ShellUtil.ResizeChildren`: the `int` doubling is unbounded, so signed overflow is not modelled.
- `ShellUtil.CapacityAfter`: bounds only the counter `maxChildren`. `resizeChildren` stores the `realloc` result in its own parameter (dragonshell_util.h:102-108), so the global `childPID` keeps its `MAX_ARG` slots from dragonshell.c:383 and may dangle after a moving `realloc`. The PID writes after `fork` then go past the array once more than `MAX_ARG` children were launched. Arrays of PIDs are not modelled.
- `ShellUtil.SystemCodes`: takes a non-NULL string. `main` also calls it with the NULL `args[0]` of a blank line, which is undefined in C; that case is under Findings (`DragonShell.BlankLineHasNoWord`).
- `DragonShell.CombineArgs`: `size_t` overflow of `total_length` is not modelled. The model needs a NULL slot at or after `start`, as the loops of `combineArgs` do. `main` does not always leave one: a `cd` line of exactly `MAX_ARG` words fills `args`, and `combineArgs(args, 1)` then reads `args[MAX_ARG]`, past the array. That case is under Findings (`DragonShell.FullLineHasNoNull`).
- `MapReduce.Partitioner`: `num_partitions` must be positive, because `hash % 0` is undefined in C.
- `MapReduce.Reduce` and `MapReduce.Drain` assume a reducer that drains its key. `MR_Reduce` reads the head again after every reducer call (mapreduce.h:203-207), so a reducer that takes no value makes it loop forever, and one that stops early is called again with the same key. The model does not cover such reducers, and the per-key rotation stated by `MapReduce.Reduce` and `MapReduce.Drain` does not apply to them.
- `ThreadPool.Create`: the NULL returns on allocation failure are not modelled.
- `MatrixSerial.MatrixMultiply`, `MatrixParallel.ParallelMultiply`: `int` overflow is not modelled; matrix entries are unbounded integers.
- `MatrixParallel.ParallelMultiply`: `sqrt` and `floor` on doubles are replaced by an exact integer root `r`. A thread count that is not a perfect square is not modelled.
- The map phase of `MR_Run` is left out: it submits one job per file, then waits at `ThreadPool_check`. Its pool behaviour is covered by `ThreadPool.SubmitAll` and `ThreadPool.RunUntilIdle`, but the call into the user's mapper is not modelled.
- `destroyPartitions` is left out, because it only frees memory.

## Findings

| source | as written | input that shows it | evidently intended | confidence | as-written member | corrected member |
|---|---|---|---|---|---|---|
| DragonShell/dragonshell.c:136-145 | `combineArgs` allocates `total_length` bytes, which is 0 when no string follows the start index, and then writes the terminator into that buffer | the shell line `cd`: `main` calls `combineArgs(args, 1)` with `args[1] == NULL` | room for the terminator even when there are no words | not executed | `DragonShell.EmptyCombineOverflows` | `DragonShell.CorrectedAllocation` |
| DragonShell/dragonshell.c:137-148 | `combineArgs` reads `args` from the start index until a NULL slot. `main`'s `args` has `MAX_ARG` slots (dragonshell.c:400), and a `cd` line of `MAX_ARG` words fills them all, so both loops read `args[MAX_ARG]`, one slot past the array | the shell line `cd a b c d e f g h i` | `args` keeps a NULL slot after the most words `tokenize` stores | not executed | `DragonShell.FullLineHasNoNull` | `DragonShell.CombineCdArgs` |
| Pthreads-matrix-multiplication/matrix_mult.c:79-85 | blocks of side `n / r` cover only the first `r * (n / r)` rows and columns | 4 threads on 3×3 matrices: cell (2, 2) is never computed | every cell is computed for any thread count | not executed | `MatrixParallel.TrailingCellMissed` | `MatrixParallel.CorrectedParallelMultiply` |
| DragonShell/dragonshell.c:403-419 | a line of spaces passes `getInput`, which re-prompts only on the empty string; `tokenize` stores no word, so `main` calls `systemCodes(args[0])` with `args[0]` NULL, and `strcmp(NULL, "cd")` is undefined | the shell line of one space | treat a line with no word like an empty one and prompt again | not executed | `DragonShell.BlankLineHasNoWord` | `DragonShell.CommandCode` |
| DragonShell/dragonshell.c:37-41 | an argument made only of double quotes yields no token, and `cd` then reads the uninitialised `arg[0]` and passes it to `chdir` | the shell line `cd "` | report `INVALID_ARGS` when no path is left between the quotes | not executed | `DragonShell.QuoteOnlyPathHasNoToken` | `DragonShell.Cd` |

For each finding, the rest of the model uses the corrected definition:

- `DragonShell.CombineArgs` uses `DragonShell.CorrectedAllocation`.
- `DragonShell.CombineCdArgs` gives `args` `MAX_ARG + 1` slots, so a NULL always follows the last word.
- `DragonShell.Cd` returns `INVALID_ARGS` when `DragonShell.CdPathAsWritten` finds no token.
- `DragonShell.CommandCode` gives no code to a line without a word, instead of classifying NULL.
- `MatrixParallel.ParallelMultiply` keeps the blocks as written. `MatrixParallel.CorrectedParallelMultiply` is the corrected program.

=== FILE: cstring.dfy ===
/**
  C strings as the MapReduce library and the shell handle them.

  A NUL-terminated string is modelled by the characters before its terminator,
  so every character of a `CStr` has a code in 1..255. A raw buffer read from a
  file descriptor may contain NUL bytes; it is a sequence of `RawChar`.
 */
module CString {

  /** A byte as `unsigned char` holds it. */
  type RawChar = c: char | c as int < 256

  /** A byte that can occur before the terminator of a C string. */
  type CChar = c: char | 0 < c as int < 256 witness 'a'

  type CStr = seq<CChar>

  const NUL: RawChar := 0 as char
  const NEWLINE: CChar := '\n'
  const SPACE: CChar := ' '
  const QUOTE: CChar := '"'

  /**
    The sign of `strcmp(a, b)`: bytes compare as unsigned values, and a proper
    prefix compares smaller because its terminator is below every character.
   */
  function Strcmp(a: CStr, b: CStr): (r: int)
    ensures -1 <= r <= 1
    ensures r == 0 <==> a == b
  {
    if |a| == 0 && |b| == 0 then 0
    else if |a| == 0 then -1
    else if |b| == 0 then 1
    else if a[0] < b[0] then -1
    else if a[0] > b[0] then 1
    else
      assert a == [a[0]] + a[1..] && b == [b[0]] + b[1..];
      Strcmp(a[1..], b[1..])
  }

  /** `strcmp(a, b) <= 0`, the test both sorted-insertion loops use. */
  predicate KeyLe(a: CStr, b: CStr) {
    Strcmp(a, b) <= 0
  }

  lemma {:induction false} StrcmpAntisymmetric(a: CStr, b: CStr)
    ensures Strcmp(a, b) == -Strcmp(b, a)
  {
    if |a| > 0 && |b| > 0 && a[0] == b[0] {
      StrcmpAntisymmetric(a[1..], b[1..]);
    }
  }

  lemma {:induction false} StrcmpTransitive(a: CStr, b: CStr, c: CStr)
    requires Strcmp(a, b) <= 0 && Strcmp(b, c) <= 0
    ensures Strcmp(a, c) <= 0
  {
    if |a| > 0 && |b| > 0 && |c| > 0 && a[0] == b[0] && b[0] == c[0] {
      StrcmpTransitive(a[1..], b[1..], c[1..]);
    }
  }

  /** Two keys in order with the first strictly below the second: whatever follows the second differs from the first. */
  lemma StrcmpStrictTransitive(a: CStr, b: CStr, c: CStr)
    requires Strcmp(a, b) < 0 && Strcmp(b, c) <= 0
    ensures Strcmp(a, c) < 0
  {
    StrcmpTransitive(a, b, c);
    if a == c {
      StrcmpAntisymmetric(b, c);
    }
  }

  /** `strchr(s, target) != NULL`: searching for NUL finds the terminator. */
  predicate HasChar(s: CStr, target: RawChar) {
    target == NUL || target in s
  }

  /** The index of the first NUL in a raw buffer, or its length when there is none. */
  function NulIndex(buffer: seq<RawChar>): (n: nat)
    ensures n <= |buffer|
    ensures forall i :: 0 <= i < n ==> buffer[i] != NUL
    ensures n < |buffer| ==> buffer[n] == NUL
  {
    if |buffer| == 0 || buffer[0] == NUL then 0 else 1 + NulIndex(buffer[1..])
  }

  /** The C string a raw buffer holds: its characters up to the first NUL. */
  function StringOf(buffer: seq<RawChar>): (s: CStr)
    ensures |s| <= |buffer|
    ensures forall i :: 0 <= i < |s| ==> s[i] == buffer[i]
    ensures |s| < |buffer| ==> buffer[|s|] == NUL
  {
    var n := NulIndex(buffer);
    seq(n, i requires 0 <= i < n => buffer[i] as CChar)
  }

}

=== FILE: dragonshell.dfy ===
/**
  The argument handling of the shell's main file: splitting a line into
  words the way `strtok` does, joining the words after a command back into one
  string, and the argument checks `cd` performs before it calls `chdir`.

  `chdir` is a function the caller supplies: the directory-change result it
  would return for a path.
 */
module DragonShell {
  import opened Options
  import opened CString
  import opened ShellUtil

  // ---------------------------------------------------------------- tokenize

  predicate NoDelimiter(s: CStr, delims: CStr) {
    forall i :: 0 <= i < |s| ==> s[i] !in delims
  }

  /** The length of the leading run of non-delimiter characters of `s`. */
  function RunLength(s: CStr, delims: CStr): (n: nat)
    ensures n <= |s|
    ensures NoDelimiter(s[..n], delims)
    ensures n < |s| ==> s[n] in delims
  {
    if |s| == 0 || s[0] in delims then 0
    else
      var m := RunLength(s[1..], delims);
      assert s[..1 + m] == [s[0]] + s[1..][..m];
      1 + m
  }

  /**
    The words `tokenize(str, delim, argv)` stores in `argv[0], argv[1], ...`:
    `strtok` skips delimiter characters, takes the longest run of other
    characters as a token, and stops at the end of the string.
   */
  function Tokenize(s: CStr, delims: CStr): (tokens: seq<CStr>)
    ensures forall t :: t in tokens ==> |t| > 0 && NoDelimiter(t, delims)
    ensures Flatten(tokens) == Strip(s, delims)
    decreases |s|
  {
    if |s| == 0 then []
    else if s[0] in delims then
      Tokenize(s[1..], delims)
    else
      var n := RunLength(s, delims);
      var rest := Tokenize(s[n..], delims);
      StripRun(s, n, delims);
      [s[..n]] + rest
  }

  /** The tokens written one after another. */
  function Flatten(tokens: seq<CStr>): CStr {
    if |tokens| == 0 then [] else tokens[0] + Flatten(tokens[1..])
  }

  /** The characters of `s` that are not delimiters, in order. */
  function Strip(s: CStr, delims: CStr): (r: CStr)
    ensures |r| <= |s|
    ensures NoDelimiter(r, delims)
  {
    if |s| == 0 then []
    else if s[0] in delims then Strip(s[1..], delims)
    else [s[0]] + Strip(s[1..], delims)
  }

  lemma {:induction false} StripAppend(a: CStr, b: CStr, delims: CStr)
    ensures Strip(a + b, delims) == Strip(a, delims) + Strip(b, delims)
    decreases |a|
  {
    if |a| == 0 {
      assert a + b == b;
    } else {
      assert (a + b)[1..] == a[1..] + b;
      StripAppend(a[1..], b, delims);
    }
  }

  lemma {:induction false} StripDelimiterFree(s: CStr, delims: CStr)
    requires NoDelimiter(s, delims)
    ensures Strip(s, delims) == s
    decreases |s|
  {
    if |s| > 0 {
      StripDelimiterFree(s[1..], delims);
      assert s == [s[0]] + s[1..];
    }
  }

  /** Stripping a string that starts with a run of `n` ordinary characters keeps that run. */
  lemma StripRun(s: CStr, n: nat, delims: CStr)
    requires n <= |s| && NoDelimiter(s[..n], delims)
    ensures Strip(s, delims) == s[..n] + Strip(s[n..], delims)
  {
    assert s == s[..n] + s[n..];
    StripAppend(s[..n], s[n..], delims);
    StripDelimiterFree(s[..n], delims);
  }

  /** A string made only of delimiters yields no token. */
  lemma TokenizeOnlyDelimiters(s: CStr, delims: CStr)
    requires forall i :: 0 <= i < |s| ==> s[i] in delims
    ensures Tokenize(s, delims) == []
  {
    StripOnlyDelimiters(s, delims);
  }

  lemma {:induction false} StripOnlyDelimiters(s: CStr, delims: CStr)
    requires forall i :: 0 <= i < |s| ==> s[i] in delims
    ensures Strip(s, delims) == []
    decreases |s|
  {
    if |s| > 0 {
      StripOnlyDelimiters(s[1..], delims);
    }
  }

  /** A non-empty run without delimiters is one token. */
  lemma TokenizeWord(w: CStr, delims: CStr)
    requires |w| > 0 && NoDelimiter(w, delims)
    ensures Tokenize(w, delims) == [w]
  {
    var n := RunLength(w, delims);
    assert n == |w|;
    assert w[..n] == w;
    assert w[n..] == [];
  }

  /**
    A delimiter splits the string: the tokens of `a + [d] + b` are the tokens
    of `a` followed by the tokens of `b`. With `TokenizeWord` and the empty
    string this determines every tokenization: the tokens are the non-empty
    maximal runs between delimiters, from left to right.
   */
  lemma {:induction false} TokenizeSplit(a: CStr, d: CChar, b: CStr, delims: CStr)
    requires d in delims
    ensures Tokenize(a + [d] + b, delims) == Tokenize(a, delims) + Tokenize(b, delims)
    decreases |a|
  {
    var s := a + [d] + b;
    if |a| == 0 {
      assert s == [d] + b;
      assert s[1..] == b;
    } else if a[0] in delims {
      assert s[1..] == a[1..] + [d] + b;
      TokenizeSplit(a[1..], d, b, delims);
    } else {
      var m := RunLength(a, delims);
      RunLengthPrefix(a, [d] + b, delims);
      assert s == a + ([d] + b);
      assert s[..m] == a[..m];
      assert s[m..] == a[m..] + [d] + b;
      TokenizeSplit(a[m..], d, b, delims);
      assert Tokenize(a, delims) == [a[..m]] + Tokenize(a[m..], delims);
    }
  }

  /** The leading run of `a + c` is that of `a` when `a` has a delimiter or `c` starts with one. */
  lemma {:induction false} RunLengthPrefix(a: CStr, c: CStr, delims: CStr)
    requires |c| > 0 && c[0] in delims
    ensures RunLength(a + c, delims) == RunLength(a, delims)
    decreases |a|
  {
    if |a| > 0 && a[0] !in delims {
      assert (a + c)[1..] == a[1..] + c;
      RunLengthPrefix(a[1..], c, delims);
    }
  }

  /** The words joined with single copies of `sep`, as `combineArgs` joins them with spaces. */
  function JoinWith(words: seq<CStr>, sep: CChar): (s: CStr)
    ensures |words| == 0 ==> s == []
  {
    if |words| == 0 then []
    else if |words| == 1 then words[0]
    else words[0] + [sep] + JoinWith(words[1..], sep)
  }

  /** Splitting words joined with a delimiter gives the words back. */
  lemma {:induction false} TokenizeJoin(words: seq<CStr>, sep: CChar, delims: CStr)
    requires sep in delims
    requires forall i :: 0 <= i < |words| ==> |words[i]| > 0 && NoDelimiter(words[i], delims)
    ensures Tokenize(JoinWith(words, sep), delims) == words
    decreases |words|
  {
    if |words| == 1 {
      TokenizeWord(words[0], delims);
    } else if |words| > 1 {
      TokenizeJoin(words[1..], sep, delims);
      TokenizeJoinStep(words, sep, delims);
    }
  }

  /** Putting one more word in front of a joined string puts one more token in front. */
  lemma TokenizeJoinStep(words: seq<CStr>, sep: CChar, delims: CStr)
    requires sep in delims && |words| > 1 && |words[0]| > 0 && NoDelimiter(words[0], delims)
    requires Tokenize(JoinWith(words[1..], sep), delims) == words[1..]
    ensures Tokenize(JoinWith(words, sep), delims) == words
  {
    TokenizeSplit(words[0], sep, JoinWith(words[1..], sep), delims);
    TokenizeWord(words[0], delims);
    assert words == [words[0]] + words[1..];
  }

  // ---------------------------------------------------------------- combineArgs

  /** The index of the first NULL slot at or after `start`. */
  function NullFrom(args: Args, start: nat): (j: nat)
    requires start <= |args| && exists j :: start <= j < |args| && args[j].None?
    ensures start <= j < |args| && args[j].None?
    ensures forall i :: start <= i < j ==> args[i].Some?
    decreases |args| - start
  {
    if args[start].None? then start else NullFrom(args, start + 1)
  }

  /** The strings in the slots from `start` up to the first NULL. */
  function ArgsFrom(args: Args, start: nat): (words: seq<CStr>)
    requires start <= |args| && exists j :: start <= j < |args| && args[j].None?
    ensures var j := NullFrom(args, start);
      && |words| == j - start
      && forall i :: 0 <= i < |words| ==> args[start + i] == Some(words[i])
  {
    var j := NullFrom(args, start);
    seq(j - start, i requires 0 <= i < j - start => args[start + i].value)
  }

  /** `total_length` in `combineArgs`: one byte per character plus one per word, for a space or the terminator. */
  function AllocatedLength(words: seq<CStr>): nat {
    if |words| == 0 then 0 else |words[0]| + 1 + AllocatedLength(words[1..])
  }

  lemma {:induction false} AllocatedLengthSnoc(words: seq<CStr>, w: CStr)
    ensures AllocatedLength(words + [w]) == AllocatedLength(words) + |w| + 1
    decreases |words|
  {
    if |words| == 0 {
      assert words + [w] == [w];
    } else {
      assert (words + [w])[1..] == words[1..] + [w];
      AllocatedLengthSnoc(words[1..], w);
    }
  }

  lemma {:induction false} JoinWithSnoc(words: seq<CStr>, w: CStr, sep: CChar)
    requires |words| > 0
    ensures JoinWith(words + [w], sep) == JoinWith(words, sep) + [sep] + w
    decreases |words|
  {
    if |words| == 1 {
      assert words + [w] == [words[0], w];
    } else {
      assert (words + [w])[1..] == words[1..] + [w];
      JoinWithSnoc(words[1..], w, sep);
    }
  }

  /**
    The joined string of at least one word fills `total_length` exactly,
    terminator included.
   */
  lemma {:induction false} JoinFitsAllocation(words: seq<CStr>)
    requires |words| > 0
    ensures |JoinWith(words, SPACE)| + 1 == AllocatedLength(words)
    decreases |words|
  {
    if |words| > 1 {
      JoinFitsAllocation(words[1..]);
    }
  }

  /**
    The allocation size with room for the terminator when there are no words:
    `combineArgs` allocates `total_length`, which is 0 then.
   */
  function CorrectedAllocation(words: seq<CStr>): (n: nat)
    ensures |JoinWith(words, SPACE)| + 1 <= n
  {
    if |words| == 0 then 1
    else
      JoinFitsAllocation(words);
      AllocatedLength(words)
  }

  /**
    Without a word after the start, `combineArgs` writes its terminator into
    an allocation of zero bytes: the shell line `cd` alone reaches it, since
    the caller joins the arguments after the command word.
   */
  lemma EmptyCombineOverflows(args: Args)
    requires |args| > 0 && args[0].None?
    ensures ArgsFrom(args, 0) == []
    ensures AllocatedLength(ArgsFrom(args, 0)) < |JoinWith(ArgsFrom(args, 0), SPACE)| + 1
  {
  }

  /**
    `combineArgs(args, start)`: the strings from `args[start]` up to the
    first NULL, joined with single spaces and no trailing space. `capacity`
    is the size of the buffer the result is built in, which the corrected
    allocation keeps at least one byte above the string's length.
   */
  method CombineArgs(args: Args, start: nat) returns (combined: CStr, capacity: nat)
    requires start <= |args| && exists j :: start <= j < |args| && args[j].None?
    ensures combined == JoinWith(ArgsFrom(args, start), SPACE)
    ensures capacity == CorrectedAllocation(ArgsFrom(args, start))
    ensures |combined| + 1 <= capacity
  {
    var totalLength := TotalLength(args, start);
    capacity := if totalLength == 0 then 1 else totalLength;
    combined := JoinArgs(args, start);
  }

  /** The first loop of `combineArgs`: `total_length` summed over the words up to the first NULL. */
  method TotalLength(args: Args, start: nat) returns (totalLength: nat)
    requires start <= |args| && exists j :: start <= j < |args| && args[j].None?
    ensures totalLength == AllocatedLength(ArgsFrom(args, start))
    ensures totalLength == 0 <==> ArgsFrom(args, start) == []
  {
    var words := ArgsFrom(args, start);
    totalLength := 0;
    var i := start;
    while args[i].Some?
      invariant start <= i <= NullFrom(args, start)
      invariant totalLength == AllocatedLength(words[..i - start])
      decreases |args| - i
    {
      assert words[..i - start + 1] == words[..i - start] + [args[i].value];
      AllocatedLengthSnoc(words[..i - start], args[i].value);
      totalLength := totalLength + |args[i].value| + 1;
      i := i + 1;
    }
    assert words[..i - start] == words;
  }

  /** The second loop of `combineArgs`: each word is appended, followed by a space unless the next slot is NULL. */
  method JoinArgs(args: Args, start: nat) returns (combined: CStr)
    requires start <= |args| && exists j :: start <= j < |args| && args[j].None?
    ensures combined == JoinWith(ArgsFrom(args, start), SPACE)
  {
    var words := ArgsFrom(args, start);
    combined := [];
    var i := start;
    while args[i].Some?
      invariant start <= i <= NullFrom(args, start)
      invariant combined == JoinedPrefix(words, i - start)
      decreases |args| - i
    {
      JoinedPrefixStep(words, i - start);
      combined := combined + args[i].value;
      if args[i + 1].Some? {
        combined := combined + [SPACE];
      }
      i := i + 1;
    }
    assert words[..i - start] == words;
  }

  /** What the second loop has built after `k` words: a space follows the last one unless it is the final word. */
  function JoinedPrefix(words: seq<CStr>, k: nat): CStr
    requires k <= |words|
  {
    if 0 < k < |words| then JoinWith(words[..k], SPACE) + [SPACE] else JoinWith(words[..k], SPACE)
  }

  lemma JoinedPrefixStep(words: seq<CStr>, k: nat)
    requires k < |words|
    ensures JoinedPrefix(words, k + 1)
         == JoinedPrefix(words, k) + words[k] + (if k + 1 < |words| then [SPACE] else [])
  {
    assert words[..k + 1] == words[..k] + [words[k]];
    if k > 0 {
      JoinWithSnoc(words[..k], words[k], SPACE);
    } else {
      assert words[..1] == [words[0]];
    }
  }

  /**
    The argument array `main` hands to `combineArgs`: `slots` pointers
    cleared to NULL, then the tokens of the line stored from index 0. Tokens
    beyond the array are not modelled.
   */
  function ArgsOfLine(tokens: seq<CStr>, slots: nat): (args: Args)
    ensures |args| == slots
    ensures forall i :: 0 <= i < slots && i < |tokens| ==> args[i] == Some(tokens[i])
    ensures forall i :: |tokens| <= i < slots ==> args[i].None?
  {
    seq(slots, i requires 0 <= i < slots => if i < |tokens| then Some(tokens[i]) else None)
  }

  /**
    A `cd` line of `MAX_ARG` words fills all `MAX_ARG` slots of `main`'s
    array, so no NULL is left at or after index 1 for the loops of
    `combineArgs(args, 1)` to stop at: they read `args[MAX_ARG]`.
   */
  lemma FullLineHasNoNull(tokens: seq<CStr>)
    requires |tokens| == MAX_ARG
    ensures !exists j :: 1 <= j < MAX_ARG && ArgsOfLine(tokens, MAX_ARG)[j].None?
  {
  }

  /**
    With one slot more than the most words `tokenize` may store, the array
    of a `cd` line always holds a NULL after its last word, and the words
    `combineArgs(args, 1)` reads are exactly the words after `cd`.
   */
  lemma ArgsOfLineFrom(tokens: seq<CStr>)
    requires 1 <= |tokens| <= MAX_ARG
    ensures var args := ArgsOfLine(tokens, MAX_ARG + 1);
      && (exists j :: 1 <= j < |args| && args[j].None?)
      && ArgsFrom(args, 1) == tokens[1..]
  {
    var args := ArgsOfLine(tokens, MAX_ARG + 1);
    assert args[|tokens|].None?;
    assert NullFrom(args, 1) == |tokens|;
    var words := ArgsFrom(args, 1);
    assert |words| == |tokens| - 1;
    forall i | 0 <= i < |words|
      ensures words[i] == tokens[1..][i]
    {
      assert args[1 + i] == Some(words[i]);
      assert args[1 + i] == Some(tokens[1 + i]);
    }
  }

  /**
    The `cd` argument `main` builds with `combineArgs(args, 1)`, in the
    corrected reading where `args` has `MAX_ARG + 1` slots: the words after
    `cd`, joined with single spaces, in a buffer with room for the terminator.
   */
  method CombineCdArgs(tokens: seq<CStr>) returns (combined: CStr, capacity: nat)
    requires 1 <= |tokens| <= MAX_ARG
    ensures combined == JoinWith(tokens[1..], SPACE)
    ensures |combined| + 1 <= capacity
  {
    var args := ArgsOfLine(tokens, MAX_ARG + 1);
    ArgsOfLineFrom(tokens);
    combined, capacity := CombineArgs(args, 1);
  }

  // ---------------------------------------------------------------- cd

  /**
    The path `cd` hands to `chdir`, as the code is written: the argument
    itself, or when it contains a double quote the first token of splitting
    it on double quotes. `None` stands for the uninitialised `arg[0]` read
    when the argument consists of double quotes only.
   */
  function CdPathAsWritten(path: CStr): (target: Option<CStr>)
    ensures QUOTE !in path ==> target == Some(path)
    ensures QUOTE in path ==> (target.None? <==> Tokenize(path, [QUOTE]) == [])
    ensures QUOTE in path && Tokenize(path, [QUOTE]) != [] ==> target == Some(Tokenize(path, [QUOTE])[0])
  {
    if QUOTE in path then
      var tokens := Tokenize(path, [QUOTE]);
      if |tokens| == 0 then None else Some(tokens[0])
    else Some(path)
  }

  /** `cd "\""` in the code as written reads a token `tokenize` never stored. */
  lemma QuoteOnlyPathHasNoToken()
    ensures CdPathAsWritten([QUOTE]).None?
  {
    TokenizeOnlyDelimiters([QUOTE], [QUOTE]);
  }

  /**
    `cd(path)`: `INVALID_ARGS` for a NULL argument and, in the corrected
    reading, for an argument that holds no path between its quotes; otherwise
    `SUCCESS` when `chdir` of the effective path returns 0 and `FAILED` for
    any other result.
   */
  function Cd(path: Option<CStr>, chdir: CStr -> int): (r: int)
    ensures path.None? ==> r == INVALID_ARGS
    ensures path.Some? && CdPathAsWritten(path.value).None? ==> r == INVALID_ARGS
    ensures path.Some? && CdPathAsWritten(path.value).Some? ==>
      (r == SUCCESS <==> chdir(CdPathAsWritten(path.value).value) == 0)
      && (r == SUCCESS || r == FAILED)
  {
    if path.None? then INVALID_ARGS
    else
      match CdPathAsWritten(path.value)
      case None => INVALID_ARGS
      case Some(target) => if chdir(target) == SUCCESS then SUCCESS else FAILED
  }

  /**
    Quoting a directory name does not change what `cd` does: a name without
    quotes, given bare or between double quotes, reaches `chdir` unchanged.
   */
  lemma {:induction false} CdQuotedName(name: CStr, chdir: CStr -> int)
    requires |name| > 0 && QUOTE !in name
    ensures CdPathAsWritten([QUOTE] + name + [QUOTE]) == Some(name)
    ensures Cd(Some([QUOTE] + name + [QUOTE]), chdir) == Cd(Some(name), chdir)
  {
    var quoted := [QUOTE] + name + [QUOTE];
    assert Tokenize(quoted, [QUOTE]) == [name] by {
      assert quoted == [] + [QUOTE] + (name + [QUOTE]);
      TokenizeSplit([], QUOTE, name + [QUOTE], [QUOTE]);
      assert name + [QUOTE] == name + [QUOTE] + [];
      TokenizeSplit(name, QUOTE, [], [QUOTE]);
      TokenizeWord(name, [QUOTE]);
      assert Tokenize([], [QUOTE]) == [];
    }
    assert QUOTE in quoted by { assert quoted[0] == QUOTE; }
  }

  // ---------------------------------------------------------------- main's dispatch

  /** A line yields no word exactly when it holds only delimiters. */
  lemma TokenizeNothing(s: CStr, delims: CStr)
    ensures Tokenize(s, delims) == [] <==> forall i :: 0 <= i < |s| ==> s[i] in delims
  {
    if Tokenize(s, delims) == [] {
      StripNothing(s, delims);
    } else {
      TokenizeNonEmpty(s, delims);
    }
    if forall i :: 0 <= i < |s| ==> s[i] in delims {
      TokenizeOnlyDelimiters(s, delims);
    }
  }

  lemma {:induction false} StripNothing(s: CStr, delims: CStr)
    requires Strip(s, delims) == []
    ensures forall i :: 0 <= i < |s| ==> s[i] in delims
    decreases |s|
  {
    if |s| > 0 {
      StripNothing(s[1..], delims);
      forall i | 0 <= i < |s|
        ensures s[i] in delims
      {
        if i > 0 {
          assert s[i] == s[1..][i - 1];
        }
      }
    }
  }

  lemma TokenizeNonEmpty(s: CStr, delims: CStr)
    requires Tokenize(s, delims) != []
    ensures exists i :: 0 <= i < |s| && s[i] !in delims
  {
    var tokens := Tokenize(s, delims);
    assert |tokens[0]| > 0;
    assert Flatten(tokens)[0] == tokens[0][0];
    StripHasOrdinary(s, delims);
  }

  lemma {:induction false} StripHasOrdinary(s: CStr, delims: CStr)
    requires Strip(s, delims) != []
    ensures exists i :: 0 <= i < |s| && s[i] !in delims
    decreases |s|
  {
    if s[0] in delims {
      StripHasOrdinary(s[1..], delims);
      var i :| 0 <= i < |s[1..]| && s[1..][i] !in delims;
      assert s[i + 1] !in delims;
    } else {
      assert s[0] !in delims;
    }
  }

  /**
    A line of spaces gets past `getInput`, whose only re-prompt is the empty
    string, and `tokenize` stores no word for it, so `main` then classifies
    the NULL it left in `args[0]`.
   */
  lemma BlankLineHasNoWord()
    ensures GetInput([SPACE]).1 == SUCCESS
    ensures GetInput([SPACE]).0 == [SPACE]
    ensures Tokenize(GetInput([SPACE]).0, [SPACE]) == []
  {
    GetInputLine([SPACE]);
    TokenizeOnlyDelimiters([SPACE], [SPACE]);
  }

  /**
    The code `main` switches on for an accepted line, in the corrected
    reading: a line with no word is a prompt again (`None`), and any other
    line is classified by its first word.
   */
  function CommandCode(line: CStr, executable: CStr -> bool): (code: Option<int>)
    ensures code.None? <==> forall i :: 0 <= i < |line| ==> line[i] == SPACE
    ensures Tokenize(line, [SPACE]) != [] ==> code == Some(SystemCodes(Tokenize(line, [SPACE])[0], executable))
  {
    var tokens := Tokenize(line, [SPACE]);
    TokenizeNothing(line, [SPACE]);
    if tokens == [] then None else Some(SystemCodes(tokens[0], executable))
  }
}

=== FILE: mapreduce.dfy ===
/**
  The intermediate key/value store of MapReduce/mapreduce.h: the djb2
  partitioner, sorted insertion by `MR_Emit`, destructive consumption by
  `MR_GetNext`, the `MR_Reduce` driver loop, and the choice of reduce jobs in
  `MR_Run`.

  Each partition's linked list is a sequence of records; the partition locks
  are abstracted away, so every operation is one critical section.
 */
module MapReduce {

  import opened Options
  import opened CString
  import ThreadPool
  import opened Splice

  type Key = CStr
  type Value = CStr

  datatype KeyValue = KeyValue(key: Key, value: Value)

  /** One partition: its list, head first, and the `size` counter kept beside it. */
  datatype Bucket = Bucket(records: seq<KeyValue>, size: nat)

  /** The global partition table; `numParts` is the number of buckets. */
  datatype Partitions = Partitions(buckets: seq<Bucket>)

  /** A key together with the values the reducer drained for it, in the order it received them. */
  datatype Group = Group(key: Key, values: seq<Value>)

  const HASH_SEED: nat := 5381
  const HASH_MULTIPLIER: nat := 33
  /** `unsigned long` arithmetic on an LP64 platform wraps modulo 2^64. */
  const ULONG_RANGE: nat := 0x1_0000_0000_0000_0000
  /** `num_partitions` is an `unsigned int`. */
  const UINT_RANGE: nat := 0x1_0000_0000

  // ---------------------------------------------------------------- partitioner

  /** `int c = *key++` where `char` is signed (x86-64): bytes 128..255 read as negative. */
  function SignedChar(c: CChar): (v: int)
    ensures -128 <= v < 128 && v != 0
    ensures (v - c as int) % 256 == 0
  {
    if c as int < 128 then c as int else c as int - 256
  }

  /** The `unsigned long` accumulator of `MR_Partitioner` after it has read every byte of `key`. */
  function Djb2(key: Key): (h: nat)
    ensures h < ULONG_RANGE
  {
    if |key| == 0 then HASH_SEED
    else (Djb2(key[..|key| - 1]) * HASH_MULTIPLIER + SignedChar(key[|key| - 1])) % ULONG_RANGE
  }

  function Pow(b: nat, e: nat): nat {
    if e == 0 then 1 else b * Pow(b, e - 1)
  }

  /** The character part of the djb2 polynomial, highest power first: Σ c_i·33^(n-1-i). */
  function Weighted(key: Key): int {
    if |key| == 0 then 0
    else SignedChar(key[0]) * Pow(HASH_MULTIPLIER, |key| - 1) + Weighted(key[1..])
  }

  /** The djb2 polynomial 5381·33^n + Σ c_i·33^(n-1-i) over unbounded integers. */
  function Djb2Polynomial(key: Key): int {
    HASH_SEED * Pow(HASH_MULTIPLIER, |key|) + Weighted(key)
  }

  /** `MR_Partitioner`: the partition a key is routed to. */
  function Partitioner(key: Key, numPartitions: nat): (r: nat)
    requires 0 < numPartitions < UINT_RANGE
    ensures r < numPartitions
    ensures r == Djb2Polynomial(key) % ULONG_RANGE % numPartitions
  {
    Djb2Closed(key);
    Djb2(key) % numPartitions
  }

  lemma MulAtLeast(x: int, m: nat)
    requires x >= 1
    ensures x * m >= m
  {
  }

  /** Euclidean division is unique: a quotient and a remainder in range determine `z % m`. */
  lemma ModUnique(z: int, a: int, r: int, m: nat)
    requires m > 0 && 0 <= r < m && z == a * m + r
    ensures z % m == r
  {
    var a2, r2 := z / m, z % m;
    assert z == a2 * m + r2;
    assert (a - a2) * m == r2 - r;
    if a > a2 {
      MulAtLeast(a - a2, m);
    } else if a < a2 {
      MulAtLeast(a2 - a, m);
    }
  }

  lemma ModAddMultiple(q: int, y: int, m: nat)
    requires m > 0
    ensures (q * m + y) % m == y % m
  {
    var d := y / m;
    assert y == d * m + y % m;
    assert q * m + y == (q + d) * m + y % m;
    ModUnique(q * m + y, q + d, y % m, m);
  }

  /** Reducing the accumulator at every step gives the same residue as reducing once at the end. */
  lemma ModStep(a: int, c: int, m: nat)
    requires m > 0
    ensures ((a % m) * HASH_MULTIPLIER + c) % m == (a * HASH_MULTIPLIER + c) % m
  {
    var q := a / m;
    assert a == q * m + a % m;
    assert a * HASH_MULTIPLIER + c == (q * HASH_MULTIPLIER) * m + ((a % m) * HASH_MULTIPLIER + c);
    ModAddMultiple(q * HASH_MULTIPLIER, (a % m) * HASH_MULTIPLIER + c, m);
  }

  lemma {:induction false} WeightedSnoc(key: Key)
    requires |key| > 0
    ensures Weighted(key) == Weighted(key[..|key| - 1]) * HASH_MULTIPLIER + SignedChar(key[|key| - 1])
    decreases |key|
  {
    if |key| == 1 {
      assert Weighted(key[1..]) == 0;
    } else {
      var init := key[..|key| - 1];
      assert key[1..][..|key| - 2] == init[1..];
      assert init[0] == key[0];
      WeightedSnoc(key[1..]);
      calc {
        Weighted(key);
        SignedChar(key[0]) * Pow(HASH_MULTIPLIER, |key| - 1) + Weighted(key[1..]);
        SignedChar(key[0]) * Pow(HASH_MULTIPLIER, |key| - 1)
          + Weighted(init[1..]) * HASH_MULTIPLIER + SignedChar(key[|key| - 1]);
        (SignedChar(init[0]) * Pow(HASH_MULTIPLIER, |init| - 1) + Weighted(init[1..])) * HASH_MULTIPLIER
          + SignedChar(key[|key| - 1]);
      }
    }
  }

  /**
    The wrapping fold of `MR_Partitioner` equals the djb2 polynomial taken
    modulo 2^64 once: the hash depends on the key bytes alone.
   */
  lemma {:induction false} Djb2Closed(key: Key)
    ensures Djb2(key) == Djb2Polynomial(key) % ULONG_RANGE
    decreases |key|
  {
    if |key| > 0 {
      var init := key[..|key| - 1];
      var c := SignedChar(key[|key| - 1]);
      Djb2Closed(init);
      WeightedSnoc(key);
      ModStep(Djb2Polynomial(init), c, ULONG_RANGE);
      assert Djb2Polynomial(key) == Djb2Polynomial(init) * HASH_MULTIPLIER + c;
    }
  }

  // ---------------------------------------------------------------- partitions

  predicate Sorted(records: seq<KeyValue>) {
    forall i, j :: 0 <= i < j < |records| ==> KeyLe(records[i].key, records[j].key)
  }

  /** The bucket's `size` field counts its records. */
  predicate SizeAgrees(b: Bucket) {
    b.size == |b.records|
  }

  predicate BucketValid(b: Bucket) {
    SizeAgrees(b) && Sorted(b.records)
  }

  predicate Valid(p: Partitions) {
    forall i :: 0 <= i < |p.buckets| ==> BucketValid(p.buckets[i])
  }

  /** `initPartitions(num_parts)`: every partition starts empty. */
  function InitPartitions(numParts: nat): (p: Partitions)
    ensures |p.buckets| == numParts
    ensures forall i :: 0 <= i < numParts ==> p.buckets[i].records == []
    ensures Valid(p)
  {
    Partitions(seq(numParts, _ => Bucket([], 0)))
  }

  /** The records of `records` whose key is `key`, in list order. */
  function Select(records: seq<KeyValue>, key: Key): (r: seq<KeyValue>)
    ensures |r| <= |records|
    ensures forall i :: 0 <= i < |r| ==> r[i].key == key
  {
    if |records| == 0 then []
    else (if records[0].key == key then [records[0]] else []) + Select(records[1..], key)
  }

  lemma {:induction false} SelectAppend(a: seq<KeyValue>, b: seq<KeyValue>, key: Key)
    ensures Select(a + b, key) == Select(a, key) + Select(b, key)
  {
    if |a| == 0 {
      assert a + b == b;
    } else {
      var head: seq<KeyValue> := if a[0].key == key then [a[0]] else [];
      assert (a + b)[0] == a[0] && (a + b)[1..] == a[1..] + b;
      SelectAppend(a[1..], b, key);
      assert Select(a + b, key) == head + (Select(a[1..], key) + Select(b, key));
    }
  }

  /** In a sorted list whose head key is above `key`, no record has `key`. */
  lemma {:induction false} SelectAbove(records: seq<KeyValue>, key: Key)
    requires Sorted(records)
    requires |records| > 0 && Strcmp(records[0].key, key) > 0
    ensures Select(records, key) == []
  {
    if |records| > 1 {
      StrcmpAntisymmetric(records[0].key, key);
      StrcmpStrictTransitive(key, records[0].key, records[1].key);
      StrcmpAntisymmetric(records[1].key, key);
      SelectAbove(records[1..], key);
    }
  }

  /**
    Where the traversal loop of `MR_Emit` stops: the first record whose key
    compares above `key`, or the end of the list.
   */
  function InsertionPoint(records: seq<KeyValue>, key: Key): (k: nat)
    ensures k <= |records|
    ensures forall i :: 0 <= i < k ==> KeyLe(records[i].key, key)
    ensures k < |records| ==> !KeyLe(records[k].key, key)
  {
    if |records| == 0 || Strcmp(records[0].key, key) > 0 then 0
    else 1 + InsertionPoint(records[1..], key)
  }

  /**
    The sorted linked-list insertion of `MR_Emit`, on a sequence: the new
    record lands at the insertion point, and the existing records keep their
    order around it.
   */
  function InsertRecord(records: seq<KeyValue>, kv: KeyValue): (r: seq<KeyValue>)
    ensures var k := InsertionPoint(records, kv.key);
      r == records[..k] + [kv] + records[k..]
    ensures |r| == |records| + 1
  {
    if |records| == 0 || Strcmp(records[0].key, kv.key) > 0 then
      assert records[..0] == [] && records[0..] == records;
      [kv] + records
    else
      var k := InsertionPoint(records[1..], kv.key);
      assert InsertionPoint(records, kv.key) == k + 1;
      SpliceCons(records, k, kv);
      [records[0]] + InsertRecord(records[1..], kv)
  }

  lemma InsertRecordSorted(records: seq<KeyValue>, kv: KeyValue)
    ensures Sorted(records) ==> Sorted(InsertRecord(records, kv))
  {
    if !Sorted(records) { return; }
    var k := InsertionPoint(records, kv.key);
    var r := InsertRecord(records, kv);
    forall i, j | 0 <= i < j < |r|
      ensures KeyLe(r[i].key, r[j].key)
    {
      SpliceIndex(records, k, kv, i);
      SpliceIndex(records, k, kv, j);
      if i == k {
        StrcmpAntisymmetric(records[k].key, kv.key);
        if k < j - 1 {
          StrcmpTransitive(kv.key, records[k].key, records[j - 1].key);
        }
      }
    }
  }

  /**
    `MR_Emit` is stable: inserting into a sorted list appends the new record
    behind every record of its key and leaves other keys' records alone.
   */
  lemma {:induction false} InsertRecordStable(records: seq<KeyValue>, kv: KeyValue, key: Key)
    requires Sorted(records)
    ensures Select(InsertRecord(records, kv), key)
         == Select(records, key) + (if kv.key == key then [kv] else [])
  {
    var mine: seq<KeyValue> := if kv.key == key then [kv] else [];
    if |records| == 0 {
      assert InsertRecord(records, kv) == [kv];
      assert Select([kv], key) == mine + Select([], key);
    } else if Strcmp(records[0].key, kv.key) > 0 {
      var r := [kv] + records;
      assert InsertRecord(records, kv) == r;
      assert r[1..] == records;
      assert Select(r, key) == mine + Select(records, key);
      if kv.key == key {
        SelectAbove(records, key);
      }
    } else {
      var tail := InsertRecord(records[1..], kv);
      var r := [records[0]] + tail;
      assert InsertRecord(records, kv) == r;
      assert r[1..] == tail;
      var head: seq<KeyValue> := if records[0].key == key then [records[0]] else [];
      assert Select(r, key) == head + Select(tail, key);
      assert Select(records, key) == head + Select(records[1..], key);
      InsertRecordStable(records[1..], kv, key);
      ConcatAssociative(head, Select(records[1..], key), mine);
    }
  }

  /** One bucket after `MR_Emit` inserted `kv` into it. */
  function InsertIntoBucket(b: Bucket, kv: KeyValue): (b': Bucket)
    ensures var k := InsertionPoint(b.records, kv.key);
      b'.records == b.records[..k] + [kv] + b.records[k..]
    ensures multiset(b'.records) == multiset(b.records) + multiset{kv}
    ensures b'.size == b.size + 1
    ensures BucketValid(b) ==> BucketValid(b')
  {
    InsertRecordSorted(b.records, kv);
    SpliceMultiset(b.records, InsertionPoint(b.records, kv.key), kv);
    Bucket(InsertRecord(b.records, kv), b.size + 1)
  }

  /**
    `MR_Emit(key, value)`: one record is added to partition
    `MR_Partitioner(key)` at its sorted position, that partition's `size`
    grows by one, and no other partition changes.
   */
  function Emit(p: Partitions, key: Key, value: Value): (p': Partitions)
    requires 0 < |p.buckets| < UINT_RANGE
    ensures |p'.buckets| == |p.buckets|
    ensures var t := Partitioner(key, |p.buckets|);
      var k := InsertionPoint(p.buckets[t].records, key);
      && p'.buckets[t].records
         == p.buckets[t].records[..k] + [KeyValue(key, value)] + p.buckets[t].records[k..]
      && multiset(p'.buckets[t].records)
         == multiset(p.buckets[t].records) + multiset{KeyValue(key, value)}
      && p'.buckets[t].size == p.buckets[t].size + 1
    ensures forall i :: 0 <= i < |p.buckets| && i != Partitioner(key, |p.buckets|) ==>
      p'.buckets[i] == p.buckets[i]
    ensures Valid(p) ==> Valid(p')
  {
    var t := Partitioner(key, |p.buckets|);
    Partitions(p.buckets[t := InsertIntoBucket(p.buckets[t], KeyValue(key, value))])
  }

  /** Emit every pair of `emissions` in order, as the map phase does. */
  function EmitAll(p: Partitions, emissions: seq<KeyValue>): (p': Partitions)
    requires 0 < |p.buckets| < UINT_RANGE
    ensures |p'.buckets| == |p.buckets|
    ensures Valid(p) ==> Valid(p')
    decreases |emissions|
  {
    if |emissions| == 0 then p
    else EmitAll(Emit(p, emissions[0].key, emissions[0].value), emissions[1..])
  }

  /**
    After the map phase, the partition a key hashes to holds that key's
    records in emission order, behind the ones it already held.
   */
  lemma {:induction false} EmitAllRoutes(p: Partitions, emissions: seq<KeyValue>, key: Key)
    requires 0 < |p.buckets| < UINT_RANGE && Valid(p)
    ensures var t := Partitioner(key, |p.buckets|);
      Select(EmitAll(p, emissions).buckets[t].records, key)
      == Select(p.buckets[t].records, key) + Select(emissions, key)
    decreases |emissions|
  {
    var t := Partitioner(key, |p.buckets|);
    if |emissions| == 0 {
      assert Select(emissions, key) == [];
      assert Select(p.buckets[t].records, key) + [] == Select(p.buckets[t].records, key);
    } else {
      var e := emissions[0];
      var p1 := Emit(p, e.key, e.value);
      var mine: seq<KeyValue> := if e.key == key then [e] else [];
      if Partitioner(e.key, |p.buckets|) == t {
        assert p1.buckets[t].records == InsertRecord(p.buckets[t].records, e);
        InsertRecordStable(p.buckets[t].records, e, key);
      } else {
        assert e.key != key;
        assert p1.buckets[t] == p.buckets[t];
        assert Select(p.buckets[t].records, key) + mine == Select(p.buckets[t].records, key);
      }
      assert Select(p1.buckets[t].records, key) == Select(p.buckets[t].records, key) + mine;
      EmitAllRoutes(p1, emissions[1..], key);
      assert Select(emissions, key) == mine + Select(emissions[1..], key);
      ConcatAssociative(Select(p.buckets[t].records, key), mine, Select(emissions[1..], key));
    }
  }

  // ---------------------------------------------------------------- consumption

  /**
    The length of the run of records with key `key` at the head of the list:
    the records `MR_GetNext(key, ·)` can reach before it returns NULL.
   */
  function LeadingRun(records: seq<KeyValue>, key: Key): (n: nat)
    ensures n <= |records|
    ensures forall i :: 0 <= i < n ==> records[i].key == key
    ensures n < |records| ==> records[n].key != key
  {
    if |records| == 0 || records[0].key != key then 0
    else 1 + LeadingRun(records[1..], key)
  }

  lemma LeadingRunUnique(records: seq<KeyValue>, key: Key, m: nat)
    requires m <= |records|
    requires forall i :: 0 <= i < m ==> records[i].key == key
    requires m < |records| ==> records[m].key != key
    ensures LeadingRun(records, key) == m
  {
  }

  function ValuesOf(records: seq<KeyValue>): (vs: seq<Value>)
    ensures |vs| == |records|
    ensures forall i :: 0 <= i < |vs| ==> vs[i] == records[i].value
  {
    seq(|records|, i requires 0 <= i < |records| => records[i].value)
  }

  /** Move the first element to the back: the order in which `MR_GetNext` hands out a key's values. */
  function Rotate(vs: seq<Value>): (r: seq<Value>)
    ensures |r| == |vs|
    ensures multiset(r) == multiset(vs)
  {
    if |vs| == 0 then [] else
      assert vs == [vs[0]] + vs[1..];
      vs[1..] + [vs[0]]
  }

  /**
    `MR_GetNext(key, idx)`: NULL, with nothing changed, when the partition is
    empty or its head carries another key. Otherwise one record with `key` is
    removed and its value returned: the second record when it also carries
    `key` (the head stays, so the decremented `size` is still positive, which
    is what the source's `assert` checks), else the head itself.
   */
  function GetNext(p: Partitions, key: Key, idx: nat): (r: (Partitions, Option<Value>))
    requires idx < |p.buckets| && SizeAgrees(p.buckets[idx])
    ensures |r.0.buckets| == |p.buckets|
    ensures forall i :: 0 <= i < |p.buckets| && i != idx ==> r.0.buckets[i] == p.buckets[i]
    ensures var recs := p.buckets[idx].records;
      r.1.Some? <==> |recs| > 0 && recs[0].key == key
    ensures r.1.None? ==> r.0 == p
    ensures r.1.Some? ==>
      var recs, recs' := p.buckets[idx].records, r.0.buckets[idx].records;
      && SizeAgrees(r.0.buckets[idx])
      && r.0.buckets[idx].size == p.buckets[idx].size - 1
      && (|recs| > 1 && recs[1].key == key ==>
            recs' == [recs[0]] + recs[2..] && r.1.value == recs[1].value
            && r.0.buckets[idx].size > 0)
      && (!(|recs| > 1 && recs[1].key == key) ==>
            recs' == recs[1..] && r.1.value == recs[0].value)
    ensures BucketValid(p.buckets[idx]) ==> BucketValid(r.0.buckets[idx])
  {
    var b := p.buckets[idx];
    if |b.records| == 0 then (p, None)
    else if b.records[0].key != key then (p, None)
    else if |b.records| > 1 && b.records[1].key == key then
      var rest := [b.records[0]] + b.records[2..];
      assert forall i :: 1 <= i < |rest| ==> rest[i] == b.records[i + 1];
      (Partitions(p.buckets[idx := Bucket(rest, b.size - 1)]), Some(b.records[1].value))
    else
      (Partitions(p.buckets[idx := Bucket(b.records[1..], b.size - 1)]), Some(b.records[0].value))
  }

  /**
    A reducer that drains its key: it calls `MR_GetNext` until NULL. It
    receives the values of the head run as `v2, ..., vn, v1`, and exactly that
    run leaves the partition.
   */
  function Drain(p: Partitions, key: Key, idx: nat): (r: (Partitions, seq<Value>))
    requires idx < |p.buckets| && SizeAgrees(p.buckets[idx])
    ensures |r.0.buckets| == |p.buckets|
    ensures forall i :: 0 <= i < |p.buckets| && i != idx ==> r.0.buckets[i] == p.buckets[i]
    ensures var recs := p.buckets[idx].records;
      var n := LeadingRun(recs, key);
      && r.0.buckets[idx] == Bucket(recs[n..], p.buckets[idx].size - n)
      && r.1 == Rotate(ValuesOf(recs[..n]))
    ensures BucketValid(p.buckets[idx]) ==> BucketValid(r.0.buckets[idx])
    decreases |p.buckets[idx].records|
  {
    var (p', v) := GetNext(p, key, idx);
    if v.None? then
      assert p.buckets[idx].records[0..] == p.buckets[idx].records;
      (p, [])
    else
      var (p'', vs) := Drain(p', key, idx);
      DrainStep(p, key, idx);
      (p'', [v.value] + vs)
  }

  /** Removing the second record of a head run of length `n` leaves a run of length `n - 1`. */
  lemma SecondRemoved(recs: seq<KeyValue>, key: Key)
    requires |recs| > 1 && recs[0].key == key && recs[1].key == key
    ensures var recs' := [recs[0]] + recs[2..];
      var n := LeadingRun(recs, key);
      && LeadingRun(recs', key) == n - 1
      && recs'[n - 1..] == recs[n..]
      && [recs[1].value] + Rotate(ValuesOf(recs'[..n - 1])) == Rotate(ValuesOf(recs[..n]))
  {
    var recs' := [recs[0]] + recs[2..];
    var n := LeadingRun(recs, key);
    SecondRemovedRun(recs, key, n);
    assert recs'[n - 1..] == recs[2..][n - 2..] == recs[n..];
    SecondRemovedValues(recs, n);
  }

  lemma SecondRemovedRun(recs: seq<KeyValue>, key: Key, n: nat)
    requires |recs| > 1 && recs[0].key == key && recs[1].key == key
    requires n == LeadingRun(recs, key)
    ensures n >= 2
    ensures LeadingRun([recs[0]] + recs[2..], key) == n - 1
  {
    var recs' := [recs[0]] + recs[2..];
    assert forall i :: 1 <= i < |recs'| ==> recs'[i] == recs[i + 1];
    LeadingRunUnique(recs', key, n - 1);
  }

  /** The value arithmetic behind `SecondRemoved`: `v2` followed by the rotation of `v1, v3..vn`. */
  lemma SecondRemovedValues(recs: seq<KeyValue>, n: nat)
    requires 2 <= n <= |recs|
    ensures [recs[1].value] + Rotate(ValuesOf(([recs[0]] + recs[2..])[..n - 1]))
         == Rotate(ValuesOf(recs[..n]))
  {
    var vs := ValuesOf(recs[..n]);
    var vs' := ValuesOf(([recs[0]] + recs[2..])[..n - 1]);
    assert vs'[0] == vs[0];
    assert vs'[1..] == vs[2..] by {
      forall k | 1 <= k < n - 1
        ensures vs'[k] == vs[k + 1]
      {
        assert ([recs[0]] + recs[2..])[k] == recs[k + 1];
      }
    }
    assert Rotate(vs') == vs[2..] + [vs[0]];
    assert Rotate(vs) == vs[1..] + [vs[0]];
    assert recs[1].value == vs[1];
    assert vs[1..] == [vs[1]] + vs[2..];
  }

  /** Removing the head of a head run of length one leaves no run of `key`. */
  lemma HeadRemoved(recs: seq<KeyValue>, key: Key)
    requires |recs| > 0 && recs[0].key == key && !(|recs| > 1 && recs[1].key == key)
    ensures LeadingRun(recs, key) == 1
    ensures LeadingRun(recs[1..], key) == 0
  {
    LeadingRunUnique(recs, key, 1);
    LeadingRunUnique(recs[1..], key, 0);
  }

  /** How one successful `MR_GetNext` shortens the head run and what the rest of the drain returns. */
  lemma DrainStep(p: Partitions, key: Key, idx: nat)
    requires idx < |p.buckets| && SizeAgrees(p.buckets[idx])
    requires GetNext(p, key, idx).1.Some?
    ensures var recs := p.buckets[idx].records;
      var (p', v) := GetNext(p, key, idx);
      var recs' := p'.buckets[idx].records;
      var n := LeadingRun(recs, key);
      && LeadingRun(recs', key) == n - 1
      && recs'[n - 1..] == recs[n..]
      && [v.value] + Rotate(ValuesOf(recs'[..n - 1])) == Rotate(ValuesOf(recs[..n]))
  {
    var recs := p.buckets[idx].records;
    var (p', v) := GetNext(p, key, idx);
    var recs' := p'.buckets[idx].records;
    if |recs| > 1 && recs[1].key == key {
      assert recs' == [recs[0]] + recs[2..] && v.value == recs[1].value;
      SecondRemoved(recs, key);
    } else {
      assert recs' == recs[1..] && v.value == recs[0].value;
      HeadRemoved(recs, key);
      HeadRemovedValues(recs);
    }
  }

  /** The value arithmetic behind `HeadRemoved`: a run of one rotates to itself. */
  lemma HeadRemovedValues(recs: seq<KeyValue>)
    requires |recs| > 0
    ensures [recs[0].value] + Rotate(ValuesOf(recs[1..][..0])) == Rotate(ValuesOf(recs[..1]))
  {
    assert Rotate(ValuesOf(recs[..1])) == [recs[0].value];
    assert recs[1..][..0] == [];
  }

  /**
    The groups a draining reducer produces when `MR_Reduce` works through a
    partition: one per head run, in list order.
   */
  function ReduceGroups(records: seq<KeyValue>): (gs: seq<Group>)
    decreases |records|
  {
    if |records| == 0 then []
    else
      var key := records[0].key;
      var n := LeadingRun(records, key);
      [Group(key, Rotate(ValuesOf(records[..n])))] + ReduceGroups(records[n..])
  }

  /** The values reduced under `key`, over all groups. */
  function ValuesFor(groups: seq<Group>, key: Key): seq<Value> {
    if |groups| == 0 then []
    else (if groups[0].key == key then groups[0].values else []) + ValuesFor(groups[1..], key)
  }

  /** A key with no record in the partition receives no values. */
  lemma {:induction false} ReduceGroupsKeys(records: seq<KeyValue>, key: Key)
    requires Select(records, key) == []
    ensures ValuesFor(ReduceGroups(records), key) == []
    decreases |records|
  {
    if |records| > 0 {
      var n := LeadingRun(records, records[0].key);
      assert records[0].key != key;
      assert records == records[..n] + records[n..];
      SelectAppend(records[..n], records[n..], key);
      ReduceGroupsKeys(records[n..], key);
    }
  }

  /**
    In a sorted partition every key forms one run, so reducing the partition
    hands each key exactly its records' values, in the order `MR_GetNext`
    returns them: nothing is lost and nothing is duplicated.
   */
  lemma {:induction false} ReduceGroupsPerKey(records: seq<KeyValue>, key: Key)
    requires Sorted(records)
    ensures ValuesFor(ReduceGroups(records), key) == Rotate(ValuesOf(Select(records, key)))
    decreases |records|
  {
    if |records| > 0 {
      var n := LeadingRun(records, records[0].key);
      if key == records[0].key {
        PerKeyHead(records, key);
      } else {
        SortedSuffix(records, n);
        ReduceGroupsPerKey(records[n..], key);
        PerKeyOther(records, key);
      }
    }
  }

  /** The head key's values all come from the first group. */
  lemma PerKeyHead(records: seq<KeyValue>, key: Key)
    requires Sorted(records) && |records| > 0 && key == records[0].key
    ensures ValuesFor(ReduceGroups(records), key) == Rotate(ValuesOf(Select(records, key)))
  {
    var n := LeadingRun(records, key);
    HeadGroupValues(records, n);
    HeadRunSelect(records, n);
  }

  lemma HeadGroupValues(records: seq<KeyValue>, n: nat)
    requires Sorted(records) && |records| > 0 && n == LeadingRun(records, records[0].key)
    ensures ValuesFor(ReduceGroups(records), records[0].key) == Rotate(ValuesOf(records[..n]))
  {
    var key := records[0].key;
    var g := Group(key, Rotate(ValuesOf(records[..n])));
    ReduceGroupsUnfold(records);
    ValuesForCons(g, ReduceGroups(records[n..]), key);
    FirstRunIsWholeKey(records, n);
    ReduceGroupsKeys(records[n..], key);
    assert ValuesFor(ReduceGroups(records), key) == g.values + [];
  }

  lemma HeadRunSelect(records: seq<KeyValue>, n: nat)
    requires Sorted(records) && |records| > 0 && n == LeadingRun(records, records[0].key)
    ensures Select(records, records[0].key) == records[..n]
  {
    SplitSelect(records, n, records[0].key);
    FirstRunIsWholeKey(records, n);
    assert Select(records, records[0].key) == records[..n] + [];
  }

  /** Any other key's values come from the groups after the first. */
  lemma PerKeyOther(records: seq<KeyValue>, key: Key)
    requires |records| > 0 && key != records[0].key
    requires var rest := records[LeadingRun(records, records[0].key)..];
      ValuesFor(ReduceGroups(rest), key) == Rotate(ValuesOf(Select(rest, key)))
    ensures ValuesFor(ReduceGroups(records), key) == Rotate(ValuesOf(Select(records, key)))
  {
    var n := LeadingRun(records, records[0].key);
    OtherGroupValues(records, n, key);
    OtherKeySelect(records, n, key);
  }

  lemma OtherGroupValues(records: seq<KeyValue>, n: nat, key: Key)
    requires |records| > 0 && key != records[0].key && n == LeadingRun(records, records[0].key)
    ensures ValuesFor(ReduceGroups(records), key) == ValuesFor(ReduceGroups(records[n..]), key)
  {
    var g := Group(records[0].key, Rotate(ValuesOf(records[..n])));
    ReduceGroupsUnfold(records);
    ValuesForCons(g, ReduceGroups(records[n..]), key);
    assert ValuesFor(ReduceGroups(records), key) == [] + ValuesFor(ReduceGroups(records[n..]), key);
  }

  lemma OtherKeySelect(records: seq<KeyValue>, n: nat, key: Key)
    requires |records| > 0 && key != records[0].key && n == LeadingRun(records, records[0].key)
    ensures Select(records, key) == Select(records[n..], key)
  {
    SplitSelect(records, n, key);
    SelectNone(records[..n], key);
    assert Select(records, key) == [] + Select(records[n..], key);
  }

  /** One step of `ReduceGroups`: the head run becomes the first group. */
  lemma ReduceGroupsUnfold(records: seq<KeyValue>)
    requires |records| > 0
    ensures var n := LeadingRun(records, records[0].key);
      ReduceGroups(records)
        == [Group(records[0].key, Rotate(ValuesOf(records[..n])))] + ReduceGroups(records[n..])
  {
  }

  lemma ValuesForCons(g: Group, gs: seq<Group>, key: Key)
    ensures ValuesFor([g] + gs, key) == (if g.key == key then g.values else []) + ValuesFor(gs, key)
  {
    assert ([g] + gs)[1..] == gs;
  }

  lemma SplitSelect(records: seq<KeyValue>, n: nat, key: Key)
    requires n <= |records|
    ensures Select(records, key) == Select(records[..n], key) + Select(records[n..], key)
  {
    assert records == records[..n] + records[n..];
    SelectAppend(records[..n], records[n..], key);
  }

  lemma SortedSuffix(records: seq<KeyValue>, n: nat)
    requires Sorted(records) && n <= |records|
    ensures Sorted(records[n..])
  {
  }

  /** In a sorted list, the head run holds every record of the head key. */
  lemma FirstRunIsWholeKey(records: seq<KeyValue>, n: nat)
    requires Sorted(records) && |records| > 0
    requires n == LeadingRun(records, records[0].key)
    ensures Select(records[..n], records[0].key) == records[..n]
    ensures Select(records[n..], records[0].key) == []
  {
    var k0 := records[0].key;
    var rest := records[n..];
    SelectAll(records[..n], k0);
    if |rest| > 0 {
      assert KeyLe(k0, rest[0].key);
      assert rest[0].key != k0;
      StrcmpAntisymmetric(k0, rest[0].key);
      assert Sorted(rest);
      SelectAbove(rest, k0);
    }
  }

  lemma {:induction false} SelectAll(records: seq<KeyValue>, key: Key)
    requires forall i :: 0 <= i < |records| ==> records[i].key == key
    ensures Select(records, key) == records
  {
    if |records| > 0 {
      SelectAll(records[1..], key);
      assert records == [records[0]] + records[1..];
    }
  }

  lemma {:induction false} SelectNone(records: seq<KeyValue>, key: Key)
    requires forall i :: 0 <= i < |records| ==> records[i].key != key
    ensures Select(records, key) == []
  {
    if |records| > 0 {
      SelectNone(records[1..], key);
    }
  }

  /**
    `MR_Reduce` on partition `idx` with a draining reducer: it calls the
    reducer on the head key until the list is empty, and leaves the partition
    empty with `size` zero.
   */
  method Reduce(p: Partitions, idx: nat) returns (p': Partitions, groups: seq<Group>)
    requires idx < |p.buckets| && SizeAgrees(p.buckets[idx])
    ensures |p'.buckets| == |p.buckets|
    ensures p'.buckets[idx] == Bucket([], 0)
    ensures forall i :: 0 <= i < |p.buckets| && i != idx ==> p'.buckets[i] == p.buckets[i]
    ensures groups == ReduceGroups(p.buckets[idx].records)
    ensures Sorted(p.buckets[idx].records) ==> forall key ::
      ValuesFor(groups, key) == Rotate(ValuesOf(Select(p.buckets[idx].records, key)))
  {
    p', groups := ReduceLoop(p, idx);
    if Sorted(p.buckets[idx].records) {
      forall key
        ensures ValuesFor(groups, key) == Rotate(ValuesOf(Select(p.buckets[idx].records, key)))
      {
        ReduceGroupsPerKey(p.buckets[idx].records, key);
      }
    }
  }

  /**
    The reducer callback `MR_Reduce` invokes with the head key: a draining
    reducer takes the head run out of the partition and sees its values as
    `v2, ..., vn, v1`.
   */
  method CallReducer(p: Partitions, key: Key, idx: nat) returns (p': Partitions, values: seq<Value>)
    requires idx < |p.buckets| && SizeAgrees(p.buckets[idx])
    ensures |p'.buckets| == |p.buckets|
    ensures forall i :: 0 <= i < |p.buckets| && i != idx ==> p'.buckets[i] == p.buckets[i]
    ensures var recs := p.buckets[idx].records;
      var n := LeadingRun(recs, key);
      && p'.buckets[idx] == Bucket(recs[n..], p.buckets[idx].size - n)
      && values == Rotate(ValuesOf(recs[..n]))
  {
    var r := Drain(p, key, idx);
    p', values := r.0, r.1;
  }

  /** The groups produced so far, followed by the groups of the records still in the partition, are all the groups. */
  predicate GroupsSoFar(groups: seq<Group>, recs: seq<KeyValue>, all: seq<Group>) {
    groups + ReduceGroups(recs) == all
  }

  /** One iteration of the `MR_Reduce` loop moves the head group from the records still to reduce to the groups produced. */
  lemma GroupsStep(groups: seq<Group>, recs: seq<KeyValue>, all: seq<Group>)
    requires |recs| > 0 && GroupsSoFar(groups, recs, all)
    ensures var n := LeadingRun(recs, recs[0].key);
      GroupsSoFar(groups + [Group(recs[0].key, Rotate(ValuesOf(recs[..n])))], recs[n..], all)
  {
    var n := LeadingRun(recs, recs[0].key);
    ReduceGroupsUnfold(recs);
    ConcatAssociative(groups, [Group(recs[0].key, Rotate(ValuesOf(recs[..n])))], ReduceGroups(recs[n..]));
  }

  /** The driver loop of `MR_Reduce`: one reducer call per head key until the partition is empty. */
  method ReduceLoop(p: Partitions, idx: nat) returns (p': Partitions, groups: seq<Group>)
    requires idx < |p.buckets| && SizeAgrees(p.buckets[idx])
    ensures |p'.buckets| == |p.buckets|
    ensures p'.buckets[idx] == Bucket([], 0)
    ensures forall i :: 0 <= i < |p.buckets| && i != idx ==> p'.buckets[i] == p.buckets[i]
    ensures groups == ReduceGroups(p.buckets[idx].records)
  {
    p' := p;
    groups := [];
    while |p'.buckets[idx].records| > 0
      invariant |p'.buckets| == |p.buckets| && SizeAgrees(p'.buckets[idx])
      invariant forall i :: 0 <= i < |p.buckets| && i != idx ==> p'.buckets[i] == p.buckets[i]
      invariant GroupsSoFar(groups, p'.buckets[idx].records, ReduceGroups(p.buckets[idx].records))
      decreases |p'.buckets[idx].records|
    {
      var recs := p'.buckets[idx].records;
      var key := recs[0].key;
      var q, values := CallReducer(p', key, idx);
      GroupsStep(groups, recs, ReduceGroups(p.buckets[idx].records));
      groups := groups + [Group(key, values)];
      p' := q;
    }
    assert groups + [] == groups;
  }



  /**
    Emitting a sequence of pairs into fresh partitions and reducing the
    partition a key hashes to yields exactly that key's emitted values, in
    emission order rotated by one: one value per `MR_Emit` with that key.
   */
  lemma EmitThenReduce(numParts: nat, emissions: seq<KeyValue>, key: Key)
    requires 0 < numParts < UINT_RANGE
    ensures var p := EmitAll(InitPartitions(numParts), emissions);
      var t := Partitioner(key, numParts);
      ValuesFor(ReduceGroups(p.buckets[t].records), key) == Rotate(ValuesOf(Select(emissions, key)))
  {
    var p0 := InitPartitions(numParts);
    var p := EmitAll(p0, emissions);
    var t := Partitioner(key, numParts);
    EmitAllRoutes(p0, emissions, key);
    assert Select(p0.buckets[t].records, key) == [];
    assert Select(p.buckets[t].records, key) == Select(emissions, key);
    ReduceGroupsPerKey(p.buckets[t].records, key);
  }

  // ---------------------------------------------------------------- MR_Run

  /** A reduce job for a non-empty partition of `p`, costed at that partition's `size`. */
  predicate IsReduceJob(p: Partitions, job: ThreadPool.Job) {
    && job.task.ReduceTask?
    && job.task.partId < |p.buckets|
    && p.buckets[job.task.partId].size > 0
    && job.jobSize == p.buckets[job.task.partId].size
  }

  /** `jobs` is what the reduce-submission loop of `MR_Run` has built after visiting partitions `0..upTo`. */
  predicate JobsUpTo(p: Partitions, jobs: seq<ThreadPool.Job>, upTo: nat) {
    && (forall j :: 0 <= j < |jobs| ==> IsReduceJob(p, jobs[j]) && jobs[j].task.partId < upTo)
    && (forall j, j' :: 0 <= j < j' < |jobs| && jobs[j].task.ReduceTask? && jobs[j'].task.ReduceTask? ==>
          jobs[j].task.partId < jobs[j'].task.partId)
    && (forall i :: 0 <= i < upTo && i < |p.buckets| && p.buckets[i].size > 0 ==>
          exists j :: 0 <= j < |jobs| && jobs[j].task.ReduceTask? && jobs[j].task.partId == i)
  }

  lemma JobsUpToStep(p: Partitions, jobs: seq<ThreadPool.Job>, i: nat)
    requires i < |p.buckets| && JobsUpTo(p, jobs, i)
    ensures p.buckets[i].size == 0 ==> JobsUpTo(p, jobs, i + 1)
    ensures p.buckets[i].size > 0 ==>
      JobsUpTo(p, jobs + [ThreadPool.Job(ThreadPool.ReduceTask(i), p.buckets[i].size)], i + 1)
  {
    if p.buckets[i].size > 0 {
      var jobs' := jobs + [ThreadPool.Job(ThreadPool.ReduceTask(i), p.buckets[i].size)];
      assert forall j :: 0 <= j < |jobs| ==> jobs'[j] == jobs[j];
      assert forall j :: 0 <= j < |jobs'| ==> IsReduceJob(p, jobs'[j]) && jobs'[j].task.partId < i + 1;
      forall j, j' | 0 <= j < j' < |jobs'| && jobs'[j].task.ReduceTask? && jobs'[j'].task.ReduceTask?
        ensures jobs'[j].task.partId < jobs'[j'].task.partId
      {
        if j' == |jobs| {
          assert jobs[j].task.partId < i;
        }
      }
      forall i' | 0 <= i' < i + 1 && i' < |p.buckets| && p.buckets[i'].size > 0
        ensures exists j :: 0 <= j < |jobs'| && jobs'[j].task.ReduceTask? && jobs'[j].task.partId == i'
      {
        if i' < i {
          var j :| 0 <= j < |jobs| && jobs[j].task.ReduceTask? && jobs[j].task.partId == i';
          assert jobs'[j].task.partId == i';
        } else {
          assert jobs'[|jobs|].task.partId == i';
        }
      }
    }
  }

  /**
    The reduce phase of `MR_Run` submits one job per non-empty partition, in
    partition order, with the partition's `size` as cost hint; empty
    partitions get none.
   */
  method ReduceJobs(p: Partitions) returns (jobs: seq<ThreadPool.Job>)
    ensures && (forall j :: 0 <= j < |jobs| ==> IsReduceJob(p, jobs[j]))
            && (forall j, j' :: 0 <= j < j' < |jobs| && jobs[j].task.ReduceTask? && jobs[j'].task.ReduceTask? ==>
                  jobs[j].task.partId < jobs[j'].task.partId)
            && (forall i :: 0 <= i < |p.buckets| && p.buckets[i].size > 0 ==>
                  exists j :: 0 <= j < |jobs| && jobs[j].task.ReduceTask? && jobs[j].task.partId == i)
  {
    jobs := [];
    var i := 0;
    while i < |p.buckets|
      invariant 0 <= i <= |p.buckets|
      invariant JobsUpTo(p, jobs, i)
    {
      JobsUpToStep(p, jobs, i);
      if p.buckets[i].size != 0 {
        jobs := jobs + [ThreadPool.Job(ThreadPool.ReduceTask(i), p.buckets[i].size)];
      }
      i := i + 1;
    }
  }

}

=== FILE: matrix_parallel.dfy ===
/**
  The threaded matrix product: `numThreads == r*r` threads, thread `t`
  computing the square block at block-row `t / r` and block-column `t % r`
  with side `n / r`. Threads write disjoint cells, so running them one after
  another gives the same matrix as any interleaving; the model runs them in
  index order.

  `sqrt` and `floor` on doubles are replaced by the exact integer root `r`.
  `int` overflow is not modelled.
 */
module MatrixParallel {
  import opened MatrixSerial

  /** The cells `[rowLo, rowHi) × [colLo, colHi)` one thread computes. */
  datatype Block = Block(rowLo: nat, rowHi: nat, colLo: nat, colHi: nat)

  predicate Within(blk: Block, n: nat) {
    blk.rowHi <= n && blk.colHi <= n
  }

  predicate InBlock(blk: Block, i: nat, j: nat) {
    blk.rowLo <= i < blk.rowHi && blk.colLo <= j < blk.colHi
  }

  /**
    `matrixMultiplyThread`: every cell of the block is reset and set to its
    dot product; every other cell of `c` keeps its value.
   */
  method MatrixMultiplyThread(a: Matrix, b: Matrix, c: Matrix, n: nat, blk: Block) returns (c': Matrix)
    requires IsSquare(a, n) && IsSquare(b, n) && IsSquare(c, n) && Within(blk, n)
    ensures IsSquare(c', n)
    ensures forall i, j :: 0 <= i < n && 0 <= j < n ==>
      c'[i][j] == if InBlock(blk, i, j) then Dot(a, b, n, i, j) else c[i][j]
  {
    c' := c;
    var i := blk.rowLo;
    while i < blk.rowHi
      invariant IsSquare(c', n)
      invariant blk.rowLo <= i || blk.rowHi <= blk.rowLo
      invariant forall p, q :: 0 <= p < n && 0 <= q < n ==>
        c'[p][q] == if InBlock(blk, p, q) && p < i then Dot(a, b, n, p, q) else c[p][q]
    {
      var j := blk.colLo;
      while j < blk.colHi
        invariant IsSquare(c', n) && i < n
        invariant forall p, q :: 0 <= p < n && 0 <= q < n ==>
          c'[p][q] == if InBlock(blk, p, q) && (p < i || (p == i && q < j)) then Dot(a, b, n, p, q) else c[p][q]
      {
        var cell := CellLoop(a, b, n, i, j);
        c' := c'[i := c'[i][j := cell]];
        j := j + 1;
      }
      i := i + 1;
    }
  }

  // ---------------------------------------------------------------- running the threads

  /** Some block among the first `upTo` contains cell `(i, j)`. */
  predicate Covered(blocks: seq<Block>, upTo: nat, i: nat, j: nat)
    requires upTo <= |blocks|
  {
    exists k :: 0 <= k < upTo && InBlock(blocks[k], i, j)
  }

  /** All threads run to completion (the `pthread_join` loop): the covered cells hold the product, the rest are untouched. */
  method RunThreads(a: Matrix, b: Matrix, c: Matrix, n: nat, blocks: seq<Block>) returns (c': Matrix)
    requires IsSquare(a, n) && IsSquare(b, n) && IsSquare(c, n)
    requires forall k :: 0 <= k < |blocks| ==> Within(blocks[k], n)
    ensures IsSquare(c', n)
    ensures forall i, j :: 0 <= i < n && 0 <= j < n ==>
      c'[i][j] == if Covered(blocks, |blocks|, i, j) then Dot(a, b, n, i, j) else c[i][j]
  {
    c' := c;
    var t := 0;
    while t < |blocks|
      invariant t <= |blocks| && IsSquare(c', n)
      invariant forall i, j :: 0 <= i < n && 0 <= j < n ==>
        c'[i][j] == if Covered(blocks, t, i, j) then Dot(a, b, n, i, j) else c[i][j]
    {
      CoveredStep(blocks, t);
      c' := MatrixMultiplyThread(a, b, c', n, blocks[t]);
      t := t + 1;
    }
  }

  lemma CoveredStep(blocks: seq<Block>, t: nat)
    requires t < |blocks|
    ensures forall i, j :: Covered(blocks, t + 1, i, j) <==> Covered(blocks, t, i, j) || InBlock(blocks[t], i, j)
  {
    forall i, j | Covered(blocks, t + 1, i, j)
      ensures Covered(blocks, t, i, j) || InBlock(blocks[t], i, j)
    {
      var k :| 0 <= k < t + 1 && InBlock(blocks[k], i, j);
      if k < t {
        assert Covered(blocks, t, i, j);
      }
    }
  }

  // ---------------------------------------------------------------- arithmetic

  /** `start * blockSize`: the first row (or column) of block index `start`. */
  function Scale(start: nat, blockSize: nat): nat {
    start * blockSize
  }

  lemma ScaleMonotone(x: nat, y: nat, m: nat)
    requires x <= y
    ensures Scale(x, m) <= Scale(y, m)
  {
  }

  /** A block starting at block index `p < r` ends by `r * bs`. */
  lemma BlockEnd(p: nat, r: nat, bs: nat)
    requires p < r
    ensures Scale(p, bs) + bs <= Scale(r, bs)
  {
    ScaleMonotone(p + 1, r, bs);
    assert Scale(p + 1, bs) == Scale(p, bs) + bs;
  }

  /** The `r` blocks of side `n / r` fit into `n`, exactly when `r` divides `n`. */
  lemma BlocksFit(n: nat, r: nat)
    requires r > 0
    ensures Scale(r, n / r) <= n
    ensures n % r == 0 ==> Scale(r, n / r) == n
  {
  }

  /** The block of side `bs` that holds index `x`. */
  lemma BlockIndex(x: nat, bs: nat) returns (p: nat)
    requires bs > 0
    ensures p == x / bs
    ensures Scale(p, bs) <= x < Scale(p, bs) + bs
  {
    p := x / bs;
    assert x == p * bs + x % bs;
  }

  /** An index below `r * bs` lies in a block with index below `r`. */
  lemma BlockIndexBound(x: nat, r: nat, bs: nat)
    requires x < Scale(r, bs)
    ensures bs > 0 && x / bs < r
  {
    var p := BlockIndex(x, bs);
    if p >= r {
      ScaleMonotone(r, p, bs);
    }
  }

  /** Thread index `t < r*r` has its block-row below `r`. */
  lemma BlockRowBound(t: nat, r: nat)
    requires r > 0 && t < r * r
    ensures t / r < r
  {
    BlockIndexBound(t, r, r);
  }

  /** The thread index `main` gives block `(p, q)`: `t = p*r + q`, with `t / r == p` and `t % r == q`. */
  lemma ThreadOf(p: nat, q: nat, r: nat) returns (t: nat)
    requires p < r && q < r
    ensures t < r * r && t / r == p && t % r == q
  {
    t := p * r + q;
    BlockEnd(p, r, r);
    var p2 := BlockIndex(t, r);
    if p2 < p {
      BlockEnd(p2, p, r);
    } else if p < p2 {
      BlockEnd(p, p2, r);
    }
  }

  /** Two blocks of side `bs` sharing index `x` start at the same block index. */
  lemma SameStart(p1: nat, p2: nat, bs: nat, x: nat)
    requires Scale(p1, bs) <= x < Scale(p1, bs) + bs && Scale(p2, bs) <= x < Scale(p2, bs) + bs
    ensures p1 == p2
  {
    if p1 < p2 {
      BlockEnd(p1, p2, bs);
    } else if p2 < p1 {
      BlockEnd(p2, p1, bs);
    }
  }

  // ---------------------------------------------------------------- thread → block, as written

  /**
    The block `main` gives thread `t` of `r*r`: `blockSize = n / r`,
    `startRow = t / r`, `startColumn = t % r`, rows and columns
    `[start * blockSize, start * blockSize + blockSize)`.
   */
  function ThreadBlock(t: nat, r: nat, n: nat): (blk: Block)
    requires r > 0
    ensures t < r * r ==> blk.rowHi <= Scale(r, n / r) && blk.colHi <= Scale(r, n / r)
    ensures t < r * r ==> Within(blk, n)
  {
    var bs := n / r;
    ThreadBlockFits(t, r, n);
    var row, col := Scale(t / r, bs), Scale(t % r, bs);
    Block(row, row + bs, col, col + bs)
  }

  lemma ThreadBlockFits(t: nat, r: nat, n: nat)
    requires r > 0
    ensures t < r * r ==> Scale(t / r, n / r) + n / r <= Scale(r, n / r) <= n
    ensures t < r * r ==> Scale(t % r, n / r) + n / r <= Scale(r, n / r)
  {
    if t < r * r {
      BlockRowBound(t, r);
      BlockEnd(t / r, r, n / r);
      BlockEnd(t % r, r, n / r);
      BlocksFit(n, r);
    }
  }

  function ThreadBlocks(r: nat, n: nat): (blocks: seq<Block>)
    requires r > 0
    ensures |blocks| == r * r
    ensures forall t :: 0 <= t < r * r ==> blocks[t] == ThreadBlock(t, r, n) && Within(blocks[t], n)
  {
    seq(r * r, t requires 0 <= t < r * r => ThreadBlock(t, r, n))
  }

  /** A thread index is its block-row times `r` plus its block-column. */
  lemma DivModSplit(t: nat, r: nat)
    requires r > 0
    ensures t == Scale(t / r, r) + t % r
  {
  }

  /** Distinct threads get distinct block coordinates, hence blocks with no cell in common. */
  lemma ThreadBlocksDisjoint(t1: nat, t2: nat, r: nat, n: nat, i: nat, j: nat)
    requires r > 0 && t1 < r * r && t2 < r * r && t1 != t2
    ensures (t1 / r, t1 % r) != (t2 / r, t2 % r)
    ensures !(InBlock(ThreadBlock(t1, r, n), i, j) && InBlock(ThreadBlock(t2, r, n), i, j))
  {
    DivModSplit(t1, r);
    DivModSplit(t2, r);
    if InBlock(ThreadBlock(t1, r, n), i, j) && InBlock(ThreadBlock(t2, r, n), i, j) {
      SameStart(t1 / r, t2 / r, n / r, i);
      SameStart(t1 % r, t2 % r, n / r, j);
    }
  }

  /**
    The threads of the program as written cover exactly the cells with row
    and column below `r * (n / r)`; when `r` does not divide `n` the last
    `n % r` rows and columns are computed by nobody.
   */
  lemma ThreadCoverage(r: nat, n: nat, i: nat, j: nat)
    requires r > 0
    ensures Covered(ThreadBlocks(r, n), r * r, i, j) <==> i < r * (n / r) && j < r * (n / r)
  {
    var blocks := ThreadBlocks(r, n);
    var extent := Scale(r, n / r);
    if Covered(blocks, r * r, i, j) {
      var t :| 0 <= t < r * r && InBlock(blocks[t], i, j);
      assert i < extent && j < extent;
    }
    if i < extent && j < extent {
      CoveredFromBelow(r, n, i, j);
    }
  }

  lemma CoveredFromBelow(r: nat, n: nat, i: nat, j: nat)
    requires r > 0 && i < Scale(r, n / r) && j < Scale(r, n / r)
    ensures Covered(ThreadBlocks(r, n), r * r, i, j)
  {
    var bs := n / r;
    BlockIndexBound(i, r, bs);
    BlockIndexBound(j, r, bs);
    var p := BlockIndex(i, bs);
    var q := BlockIndex(j, bs);
    var t := ThreadOf(p, q, r);
    assert InBlock(ThreadBlocks(r, n)[t], i, j);
  }

  /**
    The program as written: thread `t` computes `ThreadBlock(t, r, n)`. Cells
    with row and column below `r * (n / r)` hold the product; the others keep
    what `c` held. When `r` divides `n` the result is the serial product,
    which is what the test driver's comparison checks.
   */
  method ParallelMultiply(a: Matrix, b: Matrix, c: Matrix, n: nat, r: nat) returns (c': Matrix)
    requires IsSquare(a, n) && IsSquare(b, n) && IsSquare(c, n) && r > 0
    ensures IsSquare(c', n)
    ensures forall i, j :: 0 <= i < n && 0 <= j < n ==>
      c'[i][j] == if i < r * (n / r) && j < r * (n / r) then Dot(a, b, n, i, j) else c[i][j]
    ensures n % r == 0 ==> c' == Product(a, b, n)
  {
    c' := RunThreads(a, b, c, n, ThreadBlocks(r, n));
    forall i, j | 0 <= i < n && 0 <= j < n
      ensures c'[i][j] == if i < r * (n / r) && j < r * (n / r) then Dot(a, b, n, i, j) else c[i][j]
    {
      ThreadCoverage(r, n, i, j);
    }
    BlocksFit(n, r);
    if n % r == 0 {
      SameCells(c', Product(a, b, n), n);
    }
  }

  /** With 4 threads on 3 × 3 matrices, cell (2, 2) belongs to no thread, though its product entry is not 0 for the identity. */
  lemma TrailingCellMissed()
    ensures !Covered(ThreadBlocks(2, 3), 4, 2, 2)
    ensures Dot(Identity3(), Identity3(), 3, 2, 2) == 1
  {
    ThreadCoverage(2, 3, 2, 2);
    var id := Identity3();
    assert DotPrefix(id, id, 3, 2, 2, 3) == 1;
  }

  function Identity3(): (m: Matrix)
    ensures IsSquare(m, 3)
  {
    [[1, 0, 0], [0, 1, 0], [0, 0, 1]]
  }

  // ---------------------------------------------------------------- thread → block, corrected

  /** The last block-row and block-column reach to `n`, so the remainder rows and columns are computed too. */
  function CorrectedThreadBlock(t: nat, r: nat, n: nat): (blk: Block)
    requires r > 0
    ensures t < r * r ==> Within(blk, n)
  {
    ThreadCoordinates(t, r);
    CorrectedBlockAt(t / r, t % r, r, n)
  }

  /** Block `(p, q)` of the corrected assignment. */
  function CorrectedBlockAt(p: nat, q: nat, r: nat, n: nat): (blk: Block)
    requires r > 0
    ensures p < r && q < r ==> Within(blk, n)
  {
    var bs := n / r;
    BlockFitsAt(p, r, n);
    BlockFitsAt(q, r, n);
    var row, col := Scale(p, bs), Scale(q, bs);
    Block(row, if p == r - 1 then n else row + bs, col, if q == r - 1 then n else col + bs)
  }

  /** Thread `t < r*r` has block coordinates below `r`. */
  lemma ThreadCoordinates(t: nat, r: nat)
    requires r > 0
    ensures t < r * r ==> t / r < r
    ensures t % r < r
  {
    if t < r * r {
      BlockRowBound(t, r);
    }
  }

  /** A block with index below `r` ends by `n`. */
  lemma BlockFitsAt(p: nat, r: nat, n: nat)
    requires r > 0
    ensures p < r ==> Scale(p, n / r) + n / r <= n
  {
    if p < r {
      BlockEnd(p, r, n / r);
      BlocksFit(n, r);
    }
  }

  function CorrectedThreadBlocks(r: nat, n: nat): (blocks: seq<Block>)
    requires r > 0
    ensures |blocks| == r * r
    ensures forall t :: 0 <= t < r * r ==> blocks[t] == CorrectedThreadBlock(t, r, n) && Within(blocks[t], n)
  {
    seq(r * r, t requires 0 <= t < r * r => CorrectedThreadBlock(t, r, n))
  }

  /** The block index whose corrected range holds `x < n`. */
  lemma CorrectedIndex(x: nat, r: nat, n: nat) returns (p: nat)
    requires r > 0 && x < n
    ensures p < r
    ensures Scale(p, n / r) <= x < (if p == r - 1 then n else Scale(p, n / r) + n / r)
  {
    var bs := n / r;
    if bs == 0 {
      p := r - 1;
    } else {
      var p0 := BlockIndex(x, bs);
      if p0 >= r - 1 {
        p := r - 1;
        ScaleMonotone(r - 1, p0, bs);
      } else {
        p := p0;
      }
    }
  }

  /** With the corrected blocks every cell of the `n × n` matrix is computed by some thread. */
  lemma CorrectedCoverage(r: nat, n: nat, i: nat, j: nat)
    requires r > 0 && i < n && j < n
    ensures Covered(CorrectedThreadBlocks(r, n), r * r, i, j)
  {
    var p := CorrectedIndex(i, r, n);
    var q := CorrectedIndex(j, r, n);
    var t := ThreadOf(p, q, r);
    assert InBlock(CorrectedThreadBlocks(r, n)[t], i, j);
  }

  /** The corrected program computes the serial product for every root `r >= 1`. */
  method CorrectedParallelMultiply(a: Matrix, b: Matrix, c: Matrix, n: nat, r: nat) returns (c': Matrix)
    requires IsSquare(a, n) && IsSquare(b, n) && IsSquare(c, n) && r > 0
    ensures c' == Product(a, b, n)
  {
    c' := RunThreads(a, b, c, n, CorrectedThreadBlocks(r, n));
    forall i, j | 0 <= i < n && 0 <= j < n
      ensures c'[i][j] == Dot(a, b, n, i, j)
    {
      CorrectedCoverage(r, n, i, j);
    }
    SameCells(c', Product(a, b, n), n);
  }
}

=== FILE: matrix_serial.dfy ===
/**
  The serial reference of the matrix test driver: the triple loop that
  computes `C = A·B` for `n × n` integer matrices, and the cell-by-cell
  comparison of two results.

  A matrix is a sequence of rows. `int` overflow is not modelled: entries are
  unbounded integers.
 */
module MatrixSerial {

  type Matrix = seq<seq<int>>

  predicate IsSquare(m: Matrix, n: nat) {
    |m| == n && forall i :: 0 <= i < n ==> |m[i]| == n
  }

  /** Σ_{k < upTo} a[i][k]·b[k][j]. */
  function DotPrefix(a: Matrix, b: Matrix, n: nat, i: nat, j: nat, upTo: nat): int
    requires IsSquare(a, n) && IsSquare(b, n) && i < n && j < n && upTo <= n
  {
    if upTo == 0 then 0 else DotPrefix(a, b, n, i, j, upTo - 1) + a[i][upTo - 1] * b[upTo - 1][j]
  }

  /** Cell `(i, j)` of the product: row `i` of `a` against column `j` of `b`. */
  function Dot(a: Matrix, b: Matrix, n: nat, i: nat, j: nat): int
    requires IsSquare(a, n) && IsSquare(b, n) && i < n && j < n
  {
    DotPrefix(a, b, n, i, j, n)
  }

  /** The mathematical product `a·b`. */
  function Product(a: Matrix, b: Matrix, n: nat): (c: Matrix)
    requires IsSquare(a, n) && IsSquare(b, n)
    ensures IsSquare(c, n)
    ensures forall i, j :: 0 <= i < n && 0 <= j < n ==> c[i][j] == Dot(a, b, n, i, j)
  {
    seq(n, i requires 0 <= i < n => seq(n, j requires 0 <= j < n => Dot(a, b, n, i, j)))
  }

  /**
    The innermost loop shared by both programs: the cell is reset to 0 and
    then accumulates `a[i][k] * b[k][j]` for `k = 0 .. n-1`.
   */
  method CellLoop(a: Matrix, b: Matrix, n: nat, i: nat, j: nat) returns (cell: int)
    requires IsSquare(a, n) && IsSquare(b, n) && i < n && j < n
    ensures cell == Dot(a, b, n, i, j)
  {
    cell := 0;
    var k := 0;
    while k < n
      invariant k <= n
      invariant cell == DotPrefix(a, b, n, i, j, k)
    {
      cell := cell + a[i][k] * b[k][j];
      k := k + 1;
    }
  }

  /**
    `matrixMultiply(A, B, C, n)`: every cell of `C` is overwritten with the
    corresponding cell of `A·B`, whatever `C` held before; `A` and `B` are
    values here, so they are not changed.
   */
  method MatrixMultiply(a: Matrix, b: Matrix, c: Matrix, n: nat) returns (c': Matrix)
    requires IsSquare(a, n) && IsSquare(b, n) && IsSquare(c, n)
    ensures IsSquare(c', n)
    ensures forall i, j :: 0 <= i < n && 0 <= j < n ==> c'[i][j] == Dot(a, b, n, i, j)
    ensures c' == Product(a, b, n)
  {
    c' := c;
    var i := 0;
    while i < n
      invariant i <= n && IsSquare(c', n)
      invariant forall r, s :: 0 <= r < i && 0 <= s < n ==> c'[r][s] == Dot(a, b, n, r, s)
    {
      var j := 0;
      while j < n
        invariant j <= n && IsSquare(c', n)
        invariant forall r, s :: 0 <= r < i && 0 <= s < n ==> c'[r][s] == Dot(a, b, n, r, s)
        invariant forall s :: 0 <= s < j ==> c'[i][s] == Dot(a, b, n, i, s)
      {
        var cell := CellLoop(a, b, n, i, j);
        c' := c'[i := c'[i][j := cell]];
        j := j + 1;
      }
      i := i + 1;
    }
    SameCells(c', Product(a, b, n), n);
  }

  /** Two `n × n` matrices with the same cells are the same matrix. */
  lemma SameCells(c: Matrix, d: Matrix, n: nat)
    requires IsSquare(c, n) && IsSquare(d, n)
    requires forall i, j :: 0 <= i < n && 0 <= j < n ==> c[i][j] == d[i][j]
    ensures c == d
  {
    forall i | 0 <= i < n
      ensures c[i] == d[i]
    {
    }
  }

  /**
    `compareMatrices(C, expectedC, n)`: rows are scanned in order and the
    first differing cell ends the scan with 0; 1 when all `n × n` cells agree.
   */
  method CompareMatrices(c: Matrix, expected: Matrix, n: nat) returns (r: int)
    requires IsSquare(c, n) && IsSquare(expected, n)
    ensures r == 0 || r == 1
    ensures r == 1 <==> c == expected
  {
    var i := 0;
    while i < n
      invariant i <= n
      invariant forall p, q :: 0 <= p < i && 0 <= q < n ==> c[p][q] == expected[p][q]
    {
      var j := 0;
      while j < n
        invariant j <= n
        invariant forall q :: 0 <= q < j ==> c[i][q] == expected[i][q]
      {
        if c[i][j] != expected[i][j] {
          return 0;
        }
        j := j + 1;
      }
      i := i + 1;
    }
    SameCells(c, expected, n);
    return 1;
  }
}

=== FILE: options.dfy ===
/** The optional value used wherever the C code returns a pointer that may be NULL. */
module Options {

  datatype Option<+T> = None | Some(value: T)

}

=== FILE: shell_util.dfy ===
/**
  The string and array helpers of the shell's utility header: the argument
  search used for redirection, background and pipe markers, the capacity rule
  of the child-PID table, the classification of a command word, and the
  clean-up of one line read from standard input.

  System calls are not modelled: whether a path is executable is a predicate
  the caller supplies, and the bytes `read` delivers are an input.
 */
module ShellUtil {
  import opened Options
  import opened CString

  const MAX_CMD_LENGTH: nat := 1024
  const MAX_ARG: nat := 10
  const INVALID_ARGS: int := -2
  const SUCCESS: int := 0
  const FAILED: int := -1

  /** The codes `systemCodes` returns. */
  const EXIT: int := 0
  const CD: int := 10
  const PWD: int := 30
  const EXECUTE: int := 40

  /** An argument array: a slot holds a C string or is NULL. */
  type Args = seq<Option<CStr>>

  // ---------------------------------------------------------------- contains

  /** Slot `i` is a non-NULL argument in which `target` occurs. */
  predicate Hit(args: Args, i: nat, target: RawChar)
    requires i < |args|
  {
    args[i].Some? && HasChar(args[i].value, target)
  }

  /**
    `contains(args, len, target)`: the 1-based index of the first of the first
    `len` slots whose string contains `target`, that slot being set to NULL;
    0, with the array untouched, when there is none.
   */
  method Contains(args: Args, len: int, target: RawChar) returns (args': Args, r: int)
    requires len <= |args|
    ensures 0 <= r && (r == 0 || r <= len)
    ensures r == 0 <==> forall i :: 0 <= i < len ==> !Hit(args, i, target)
    ensures r == 0 ==> args' == args
    ensures r > 0 ==>
      && Hit(args, r - 1, target)
      && (forall i :: 0 <= i < r - 1 ==> !Hit(args, i, target))
      && args' == args[r - 1 := None]
  {
    var i := 0;
    while i < len
      invariant 0 <= i <= |args| && (len < 0 || i <= len)
      invariant forall k :: 0 <= k < i ==> !Hit(args, k, target)
    {
      if args[i].Some? && HasChar(args[i].value, target) {
        assert Hit(args, i, target);
        return args[i := None], i + 1;
      }
      i := i + 1;
    }
    return args, 0;
  }

  // ---------------------------------------------------------------- resizeChildren

  /** The capacity of the child-PID table after `resizeChildren(&count, &max, ...)`. */
  function ResizeChildren(count: int, max: int): (max': int)
    ensures count >= max ==> max' == 2 * max
    ensures count < max ==> max' == max
  {
    if count >= max then max * 2 else max
  }

  /**
    The table starts with `MAX_ARG` slots and each launch records one PID at
    index `count` after a resize: with a positive capacity that already covers
    `count` slots, the resized table has room for index `count`, and it never
    shrinks.
   */
  lemma ResizeLeavesRoom(count: int, max: int)
    requires 0 < max && count <= max
    ensures count < ResizeChildren(count, max)
    ensures max <= ResizeChildren(count, max) <= 2 * max
  {
  }

  /**
    The capacity counter `maxChildren` after `launches` launches, each
    preceded by a resize, starting from `MAX_ARG`. Only the counter is
    modelled: the array the caller holds is not the one `realloc` returns.
   */
  function CapacityAfter(launches: nat): (max: int)
    ensures launches < max
    ensures MAX_ARG <= max
  {
    if launches == 0 then MAX_ARG
    else
      ResizeChildren(launches, CapacityAfter(launches - 1))
  }

  // ---------------------------------------------------------------- systemCodes

  const CD_WORD: CStr := "cd"
  const PWD_WORD: CStr := "pwd"
  const EXIT_WORD: CStr := "exit"

  predicate IsBuiltin(call: CStr) {
    call == CD_WORD || call == PWD_WORD || call == EXIT_WORD
  }

  /**
    `systemCodes(call)`: the built-in words are recognised by `strcmp` before
    anything is asked of the file system; any other word is `EXECUTE` when
    `executable` holds of it (`access(call, X_OK) == 0`) and `FAILED` otherwise.
   */
  function SystemCodes(call: CStr, executable: CStr -> bool): (code: int)
    ensures code == CD <==> call == CD_WORD
    ensures code == PWD <==> call == PWD_WORD
    ensures code == EXIT <==> call == EXIT_WORD
    ensures code == EXECUTE <==> !IsBuiltin(call) && executable(call)
    ensures code == FAILED <==> !IsBuiltin(call) && !executable(call)
  {
    if Strcmp(call, CD_WORD) == 0 then CD
    else if Strcmp(call, PWD_WORD) == 0 then PWD
    else if Strcmp(call, EXIT_WORD) == 0 then EXIT
    else if executable(call) then EXECUTE
    else FAILED
  }

  /** A built-in word is classified the same whatever the file system says. */
  lemma BuiltinsIgnoreFileSystem(call: CStr, executable: CStr -> bool, executable': CStr -> bool)
    requires IsBuiltin(call)
    ensures SystemCodes(call, executable) == SystemCodes(call, executable')
  {
  }

  // ---------------------------------------------------------------- getInput

  /**
    `getInput` after `read` delivered `bytes` (at most `MAX_CMD_LENGTH - 1` of
    them): the buffer is terminated after the bytes, one trailing newline is
    overwritten by the terminator, and the status is 1 when the resulting
    command is empty and `SUCCESS` otherwise. The result's first component is
    the C string the buffer then holds.
   */
  function GetInput(bytes: seq<RawChar>): (r: (CStr, int))
    requires |bytes| <= MAX_CMD_LENGTH - 1
    ensures r.1 == 1 <==> r.0 == []
    ensures r.1 == 1 || r.1 == SUCCESS
    ensures |r.0| <= |bytes| && forall i :: 0 <= i < |r.0| ==> r.0[i] == bytes[i]
    ensures NUL !in bytes && |bytes| > 0 && bytes[|bytes| - 1] == NEWLINE ==> |r.0| == |bytes| - 1
    ensures NUL !in bytes && !(|bytes| > 0 && bytes[|bytes| - 1] == NEWLINE) ==> |r.0| == |bytes|
    ensures |r.0| < |bytes| ==>
      bytes[|r.0|] == NUL || (|r.0| == |bytes| - 1 && bytes[|r.0|] == NEWLINE)
  {
    var n := |bytes|;
    var buffer := bytes + [NUL];
    var buffer' := if n > 0 && buffer[n - 1] == NEWLINE then buffer[n - 1 := NUL] else buffer;
    var command := StringOf(buffer');
    assert buffer'[n] == NUL;
    assert n > 0 && bytes[n - 1] == NEWLINE ==> buffer'[n - 1] == NUL;
    assert forall i :: 0 <= i < n ==> buffer'[i] == bytes[i] || buffer'[i] == NUL;
    (command, if Strcmp(command, []) == 0 then 1 else SUCCESS)
  }

  /** A typed line, with or without the newline that ended it, reads back as exactly that line. */
  lemma GetInputLine(line: CStr)
    requires |line| < MAX_CMD_LENGTH - 1
    requires |line| == 0 || line[|line| - 1] != NEWLINE
    ensures GetInput(line + [NEWLINE]).0 == line
    ensures GetInput(line).0 == line
    ensures GetInput(line + [NEWLINE]).1 == (if line == [] then 1 else SUCCESS)
  {
    var typed := line + [NEWLINE];
    assert typed[|typed| - 1] == NEWLINE;
    assert NUL !in typed;
    assert NUL !in line;
  }
}

=== FILE: splice.dfy ===
/** Sequence facts shared by the two sorted-list insertions. */
module Splice {

  /** The element at position `i` after `x` is inserted at position `k`. */
  lemma SpliceIndex<T>(s: seq<T>, k: nat, x: T, i: nat)
    requires k <= |s| && i <= |s|
    ensures (s[..k] + [x] + s[k..])[i] == if i < k then s[i] else if i == k then x else s[i - 1]
  {
  }

  /** Inserting `x` adds exactly one occurrence of `x`. */
  lemma SpliceMultiset<T>(s: seq<T>, k: nat, x: T)
    requires k <= |s|
    ensures multiset(s[..k] + [x] + s[k..]) == multiset(s) + multiset{x}
  {
    assert s == s[..k] + s[k..];
  }

  /** Inserting behind the head at position `k + 1` is inserting into the tail at position `k`. */
  lemma SpliceCons<T>(s: seq<T>, k: nat, x: T)
    requires k < |s|
    ensures s[..k + 1] + [x] + s[k + 1..] == [s[0]] + (s[1..][..k] + [x] + s[1..][k..])
  {
    assert s[..k + 1] == [s[0]] + s[1..][..k];
    assert s[k + 1..] == s[1..][k..];
  }

  /** Concatenation regroups freely. */
  lemma ConcatAssociative<T>(a: seq<T>, b: seq<T>, c: seq<T>)
    ensures (a + b) + c == a + (b + c)
  {
  }
}

=== FILE: threadpool.dfy ===
/**
  The shortest-job-first worker pool of MapReduce/threadpool.h as a sequential
  state machine.

  The pool's lock, condition variables and worker threads are abstracted away:
  each operation below is one critical section, and `inFlight` counts the jobs a
  worker has dequeued and not yet finished (the source keeps that number only
  implicitly, as `jobs.size` minus the queue length).
 */
module ThreadPool {
  import opened Splice

  /**
    What a job runs: the mapper on one input file, or the reduce driver on one
    partition. The source tells the two apart by probing the argument with
    `stat`; here the tag is fixed when the job is built.
   */
  datatype Task = MapTask(fileName: string) | ReduceTask(partId: nat)

  /** A queued unit of work; `jobSize` is its cost hint (file size or record count). */
  datatype Job = Job(task: Task, jobSize: nat)

  datatype Pool = Pool(
    queue: seq<Job>,   // jobs waiting for a worker, shortest first
    size: nat,         // `jobs.size`: queued plus running jobs
    inFlight: nat,     // jobs dequeued by a worker and not yet finished
    shutdown: bool,
    numWorkers: nat)

  /** The result of one `ThreadPool_get_job` call by a worker. */
  datatype Fetch =
    | Run(job: Job)   // the worker dequeued `job`
    | Exit            // the pool is shutting down: NULL, the worker leaves its loop
    | Wait            // nothing queued: the worker blocks on the condition variable

  predicate SortedBySize(q: seq<Job>) {
    forall i, j :: 0 <= i < j < |q| ==> q[i].jobSize <= q[j].jobSize
  }

  /** `jobs.size` counts every job submitted and not yet finished. */
  predicate Counted(p: Pool) {
    p.size == |p.queue| + p.inFlight
  }

  predicate Valid(p: Pool) {
    SortedBySize(p.queue) && Counted(p)
  }

  /** The jobs of `q` with cost hint `c`, in queue order. */
  function WithSize(q: seq<Job>, c: nat): (r: seq<Job>)
    ensures |r| <= |q|
  {
    if |q| == 0 then []
    else (if q[0].jobSize == c then [q[0]] else []) + WithSize(q[1..], c)
  }

  lemma {:induction false} WithSizeAppend(a: seq<Job>, b: seq<Job>, c: nat)
    ensures WithSize(a + b, c) == WithSize(a, c) + WithSize(b, c)
  {
    if |a| == 0 {
      assert a + b == b;
    } else {
      var head: seq<Job> := if a[0].jobSize == c then [a[0]] else [];
      assert (a + b)[0] == a[0] && (a + b)[1..] == a[1..] + b;
      WithSizeAppend(a[1..], b, c);
      assert WithSize(a + b, c) == head + (WithSize(a[1..], c) + WithSize(b, c));
    }
  }

  /** State after `ThreadPool_create(num)`; a failed allocation is not modelled. */
  function Create(num: nat): (p: Pool)
    ensures Valid(p)
    ensures p.queue == [] && p.size == 0 && p.inFlight == 0 && !p.shutdown
    ensures p.numWorkers == num
  {
    Pool([], 0, 0, false, num)
  }

  /**
    Where the insertion loop of `ThreadPool_add_job` stops: the first queued
    job whose cost hint exceeds `jobSize`, or the end of the queue.
   */
  function InsertionPoint(q: seq<Job>, jobSize: nat): (k: nat)
    ensures k <= |q|
    ensures forall i :: 0 <= i < k ==> q[i].jobSize <= jobSize
    ensures k < |q| ==> q[k].jobSize > jobSize
  {
    if |q| == 0 || q[0].jobSize > jobSize then 0
    else 1 + InsertionPoint(q[1..], jobSize)
  }

  /**
    The linked-list insertion of `ThreadPool_add_job`, on a sequence: the new
    job lands at the insertion point, and the queued jobs keep their order
    around it.
   */
  function InsertJob(q: seq<Job>, job: Job): (r: seq<Job>)
    ensures var k := InsertionPoint(q, job.jobSize);
      r == q[..k] + [job] + q[k..]
    ensures |r| == |q| + 1
  {
    if |q| == 0 || q[0].jobSize > job.jobSize then
      assert q[..0] == [] && q[0..] == q;
      [job] + q
    else
      var k := InsertionPoint(q[1..], job.jobSize);
      assert InsertionPoint(q, job.jobSize) == k + 1;
      SpliceCons(q, k, job);
      [q[0]] + InsertJob(q[1..], job)
  }

  lemma InsertJobSorted(q: seq<Job>, job: Job)
    ensures SortedBySize(q) ==> SortedBySize(InsertJob(q, job))
  {
    if !SortedBySize(q) { return; }
    var k := InsertionPoint(q, job.jobSize);
    var r := InsertJob(q, job);
    forall i, j | 0 <= i < j < |r|
      ensures r[i].jobSize <= r[j].jobSize
    {
      SpliceIndex(q, k, job, i);
      SpliceIndex(q, k, job, j);
    }
  }

  /**
    Ties are first-in first-out: inserting into a sorted queue appends the new
    job to the jobs of its own cost hint and leaves every other cost's jobs alone.
   */
  lemma {:induction false} InsertJobFifo(q: seq<Job>, job: Job, c: nat)
    requires SortedBySize(q)
    ensures WithSize(InsertJob(q, job), c)
         == WithSize(q, c) + (if job.jobSize == c then [job] else [])
  {
    var mine: seq<Job> := if job.jobSize == c then [job] else [];
    if |q| == 0 {
      assert InsertJob(q, job) == [job];
      assert WithSize([job], c) == mine + WithSize([], c);
    } else if q[0].jobSize > job.jobSize {
      // every queued job is longer than `job`, so none has its cost hint
      assert WithSize(InsertJob(q, job), c) == mine + WithSize(q, c) by {
        var r := [job] + q;
        assert InsertJob(q, job) == r;
        assert r[1..] == q;
      }
      if job.jobSize == c {
        NoneWithSize(q, c);
      }
    } else {
      var head: seq<Job> := if q[0].jobSize == c then [q[0]] else [];
      var tail := InsertJob(q[1..], job);
      assert WithSize(InsertJob(q, job), c) == head + WithSize(tail, c) by {
        var r := [q[0]] + tail;
        assert InsertJob(q, job) == r;
        assert r[1..] == tail;
      }
      assert WithSize(q, c) == head + WithSize(q[1..], c);
      InsertJobFifo(q[1..], job, c);
      ConcatAssociative(head, WithSize(q[1..], c), mine);
    }
  }

  lemma {:induction false} NoneWithSize(q: seq<Job>, c: nat)
    requires SortedBySize(q)
    requires |q| > 0 && q[0].jobSize > c
    ensures WithSize(q, c) == []
  {
    if |q| > 1 {
      NoneWithSize(q[1..], c);
    }
  }

  /** `ThreadPool_add_job`: queue the job at its shortest-job-first position; always succeeds. */
  function AddJob(p: Pool, job: Job): (r: (Pool, bool))
    ensures r.1
    ensures var k := InsertionPoint(p.queue, job.jobSize);
      r.0.queue == p.queue[..k] + [job] + p.queue[k..]
    ensures multiset(r.0.queue) == multiset(p.queue) + multiset{job}
    ensures r.0.size == p.size + 1
    ensures r.0.inFlight == p.inFlight && r.0.shutdown == p.shutdown
    ensures r.0.numWorkers == p.numWorkers
    ensures Valid(p) ==> Valid(r.0)
  {
    var q := InsertJob(p.queue, job);
    var k := InsertionPoint(p.queue, job.jobSize);
    SpliceMultiset(p.queue, k, job);
    InsertJobSorted(p.queue, job);
    (p.(queue := q, size := p.size + 1), true)
  }

  /**
    `ThreadPool_get_job`: a shut-down pool yields NULL even with jobs queued;
    otherwise the head is dequeued, and `size` stays until the job finishes.
   */
  function GetJob(p: Pool): (r: (Pool, Fetch))
    ensures p.shutdown ==> r == (p, Exit)
    ensures !p.shutdown && p.queue == [] ==> r == (p, Wait)
    ensures !p.shutdown && p.queue != [] ==>
      && r.1 == Run(p.queue[0])
      && r.0 == p.(queue := p.queue[1..], inFlight := p.inFlight + 1)
    ensures r.1.Run? && SortedBySize(p.queue) ==>
      forall i :: 0 <= i < |p.queue| ==> r.1.job.jobSize <= p.queue[i].jobSize
    ensures Valid(p) ==> Valid(r.0)
  {
    if p.shutdown then (p, Exit)
    else if p.queue == [] then (p, Wait)
    else (p.(queue := p.queue[1..], inFlight := p.inFlight + 1), Run(p.queue[0]))
  }

  /** The bookkeeping of `Thread_run` once a job's function has returned. */
  function FinishJob(p: Pool): (r: Pool)
    requires Counted(p) && p.inFlight > 0
    ensures r.size == p.size - 1 && r.inFlight == p.inFlight - 1
    ensures r.queue == p.queue && r.shutdown == p.shutdown && r.numWorkers == p.numWorkers
    ensures Counted(r)
    ensures Valid(p) ==> Valid(r)
  {
    p.(size := p.size - 1, inFlight := p.inFlight - 1)
  }

  /**
    The exit condition of `ThreadPool_check`'s wait loop. In a counted state it
    holds exactly when nothing is queued and no worker is still running a job,
    so a queue emptied by a worker that is mid-job does not release the barrier.
   */
  function CheckMayReturn(p: Pool): (r: bool)
    ensures Counted(p) ==> (r <==> p.queue == [] && p.inFlight == 0)
  {
    !(p.size > 0 || p.queue != [])
  }

  /** `ThreadPool_destroy`: raise the shutdown flag; joining and freeing are not modelled. */
  function Destroy(p: Pool): (r: Pool)
    ensures r.shutdown
    ensures r.queue == p.queue && r.size == p.size && r.inFlight == p.inFlight
    ensures GetJob(r).1 == Exit
    ensures Valid(p) ==> Valid(r)
  {
    p.(shutdown := true)
  }

  /** One thing that can happen to the pool: a submission, a worker's fetch, or a worker finishing. */
  datatype Event = Submit(job: Job) | Fetch | Complete

  /** Replay events, collecting the jobs that workers start. A completion with nothing running is ignored. */
  function Replay(p: Pool, events: seq<Event>): (r: (Pool, seq<Job>))
    requires Counted(p)
    ensures Counted(r.0)
    ensures r.0.shutdown == p.shutdown
    decreases |events|
  {
    if |events| == 0 then (p, [])
    else
      var (p', started) :=
        match events[0]
        case Submit(job) => (AddJob(p, job).0, [])
        case Fetch =>
          var (q, f) := GetJob(p);
          (q, if f.Run? then [f.job] else [])
        case Complete => (if p.inFlight > 0 then FinishJob(p) else p, []);
      var (p'', rest) := Replay(p', events[1..]);
      (p'', started + rest)
  }

  /** The jobs submitted by a run of events, in order. */
  function Submissions(events: seq<Event>): (r: seq<Job>)
    ensures |r| <= |events|
  {
    if |events| == 0 then []
    else (if events[0].Submit? then [events[0].job] else []) + Submissions(events[1..])
  }

  /**
    Jobs still queued at shutdown, and any submitted after it, never start:
    they all stay in the queue.
   */
  lemma {:induction false} NothingStartsAfterShutdown(p: Pool, events: seq<Event>)
    requires Counted(p) && p.shutdown
    ensures Replay(p, events).1 == []
    ensures multiset(Replay(p, events).0.queue) == multiset(p.queue) + multiset(Submissions(events))
    decreases |events|
  {
    if |events| > 0 {
      match events[0]
      case Submit(job) =>
        NothingStartsAfterShutdown(AddJob(p, job).0, events[1..]);
      case Fetch =>
        NothingStartsAfterShutdown(p, events[1..]);
      case Complete =>
        NothingStartsAfterShutdown(if p.inFlight > 0 then FinishJob(p) else p, events[1..]);
    }
  }

  /** Submit jobs one after another, in the order given. */
  function SubmitAll(p: Pool, jobs: seq<Job>): (r: Pool)
    ensures r.size == p.size + |jobs|
    ensures r.inFlight == p.inFlight && r.shutdown == p.shutdown
    ensures multiset(r.queue) == multiset(p.queue) + multiset(jobs)
    ensures Valid(p) ==> Valid(r)
    decreases |jobs|
  {
    if |jobs| == 0 then p
    else
      var p' := AddJob(p, jobs[0]).0;
      assert jobs == [jobs[0]] + jobs[1..];
      assert multiset(jobs) == multiset{jobs[0]} + multiset(jobs[1..]);
      SubmitAll(p', jobs[1..])
  }

  /**
    Submitting to a valid pool keeps each cost hint's jobs in submission order,
    behind the ones already queued: the queue is a stable sort by cost hint.
   */
  lemma {:induction false} SubmitAllStable(p: Pool, jobs: seq<Job>, c: nat)
    requires Valid(p)
    ensures WithSize(SubmitAll(p, jobs).queue, c) == WithSize(p.queue, c) + WithSize(jobs, c)
    decreases |jobs|
  {
    if |jobs| == 0 {
      assert WithSize(jobs, c) == [];
      assert WithSize(p.queue, c) + [] == WithSize(p.queue, c);
    } else {
      var p' := AddJob(p, jobs[0]).0;
      assert p'.queue == InsertJob(p.queue, jobs[0]);
      assert SubmitAll(p, jobs) == SubmitAll(p', jobs[1..]);
      InsertJobFifo(p.queue, jobs[0], c);
      SubmitAllStable(p', jobs[1..], c);
      var mine: seq<Job> := if jobs[0].jobSize == c then [jobs[0]] else [];
      assert WithSize(jobs, c) == mine + WithSize(jobs[1..], c);
      ConcatAssociative(WithSize(p.queue, c), mine, WithSize(jobs[1..], c));
    }
  }

  /** Jobs of cost 5, 1 and 3 submitted in that order to a fresh pool are queued, and so dequeued, as 1, 3, 5. */
  lemma ShortestJobFirstExample(numWorkers: nat, a: Task, b: Task, c: Task)
    ensures var j5, j1, j3 := Job(a, 5), Job(b, 1), Job(c, 3);
      var p1 := AddJob(Create(numWorkers), j5).0;
      var p2 := AddJob(p1, j1).0;
      AddJob(p2, j3).0.queue == [j1, j3, j5]
  {
    var j5, j1, j3 := Job(a, 5), Job(b, 1), Job(c, 3);
    assert InsertJob([], j5) == [j5];
    assert InsertJob([j5], j1) == [j1, j5];
    assert [j1, j5][1..] == [j5];
    assert InsertJob([j5], j3) == [j3, j5];
    assert InsertJob([j1, j5], j3) == [j1, j3, j5];
  }

  /**
    A single worker drains the queue and the `ThreadPool_check` barrier then
    returns: it runs every queued job exactly once, shortest first.
   */
  method RunUntilIdle(p: Pool) returns (p': Pool, ran: seq<Job>)
    requires Valid(p) && !p.shutdown && p.inFlight == 0
    ensures CheckMayReturn(p')
    ensures Valid(p') && p'.queue == [] && p'.size == 0 && !p'.shutdown
    ensures ran == p.queue
    ensures SortedBySize(ran)
  {
    p' := p;
    ran := [];
    while !CheckMayReturn(p')
      invariant Valid(p') && !p'.shutdown && p'.inFlight == 0
      invariant ran + p'.queue == p.queue
      decreases |p'.queue|
    {
      var (q, f) := GetJob(p');
      match f
      case Run(job) =>
        ran := ran + [job];
        p' := FinishJob(q);
      case _ =>
        assert false;
    }
  }

}
